=== FILE: README.md ===
# cachego in Dafny

A model of the core of cachego, a UDP key cache with per-key expiry and a
per-prefix admission cap. It covers the two cache engines and the request
codec in front of them:

- **the trie engine** (`cache/cache.go`). Keys `prefix + suffix` are paths in
  a character trie. A side index maps every live key to its timer entry, and
  the entry's generation counts refreshes. The engine offers insert-or-refresh
  under a cap, search, prefix enumeration, single-key delete with upward
  pruning, prefix-subtree delete, the expiry closure and the listing.
  Modules `TrieNodes` (the tree) and `TrieCache` (the engine).
- **the flat-map engine** (`cache/cache2.go`). A map from prefix to the
  suffixes under it, each with its timer. It offers insert-or-refresh under a
  cap, delete (dropping an emptied prefix), expiry and the listing. Module
  `FlatCache`.
- **the request codec** (`server/server.go`). It has a strict, a lenient
  and a range-checked decimal parser (module `Numbers`, over `Text`, which
  models Go's `strings.Index`, `Split` and `Join`). The decoder reads the
  first CRLF line of a datagram; the dispatch of `processPDU` (trie) and
  `processPDU2` (flat map) acts on it; `result` writes the reply. All of this
  is module `Server`.
- **the legacy handler** (`server.go`). It splits the whole datagram on `||`.
  It never deletes and never replies. Module `LegacyServer`.

Each engine method takes the engine's lock for its whole body, so each is
modelled as one atomic step: a pure function from the old engine value to the
new one and the method's result. A timer is not run. Its firing is an
explicit event (`TrieCache.OnTimer`, `TrieCache.Expire`, `FlatCache.Expire`).
A duration is an integer number of seconds and is only recorded. Where Go
iterates over a map (the listings), the visiting order is a parameter. Each
such operation requires that the order enumerates the keys exactly once.

The engine invariants are stated as predicates, and every mutator is proved
to preserve them:

- `TrieCache.Valid`: the tree is pruned, meaning no node below the root is
  non-terminal and childless. The root is never terminal. The keys of the
  timer index are exactly the terminal words of the tree.
- `FlatCache.Valid`: no empty prefix or suffix is stored.

The model follows the code as written:

- A four-field request's TTL outside `[300, 900]` becomes the default 300.
  It is not moved to the nearest bound, so `1000` gives 300 and not 900.
- A delete on the trie answers `true` for any non-empty key, live or not.
- The trie's listing enumerates the keys of the timer index.

## Model

| member | source | states |
|---|---|---|
| Text.Split | server/server.go:189-196 | `strings.Split` returns at least one part. Joining the parts with the separator gives back the input, and no part contains the separator. |
| Text.SplitIsLeftmost | server/server.go:189-196 | `Split` cuts at the leftmost occurrences: there is one part iff the separator does not occur, and every part but the last, followed by the separator, first holds the separator right after the part. With the contract of `Split` this fixes the parts, also for a separator that overlaps itself. |
| Text.OverlappingSeparator | server/server.go:196 | `a\|\|\|b` splits on `\|\|` into `a` and `\|b`, as Go does. |
| Text.SplitJoin | server/server.go:196 | Splitting a join of parts that hold no separator character gives back exactly those parts. |
| Text.SplitEachLine | cache/cache.go:122-124 | Text written as "each line followed by CRLF" splits back into those lines plus one empty trailing part. |
| Numbers.LeadingDigits | server/server.go:125-130 | The digits the scan reads before its first non-digit form a prefix of the input. That prefix is all digits and is maximal. |
| Numbers.Str2IntCheck | server/server.go:83-111 | The strict parser succeeds iff the text is non-empty, has at most one leading sign and has only digits after it, with a lone `-` refused. On success the value is the signed decimal value. The legacy copy at server.go:81-109 is the same code. |
| Numbers.ScanStr2IntCheck | server/server.go:83-111 | The character loop of `str2IntCheck` (sign handling, early exit on a non-digit, accumulation) computes the same answer and flag as `Str2IntCheck`. |
| Numbers.Str2IntDefaultMinMax | server/server.go:72-81 | Returns `(v, true)` iff the strict parse succeeds with `v` in `[minN, maxN]`; otherwise it returns the default with `false`. With the default in range, the result is always in range. The legacy copy at server.go:70-79 is the same code. |
| Numbers.Str2Int | server/server.go:113-136 | The result is negative only for `-` followed by digits alone, and then it is minus their value. Without a leading `-` the result is the value of the leading digits. After a `-`, a non-digit gives the value of the leading digits with the sign dropped. The legacy copy at server.go:111-134 is the same code, early return included. |
| Numbers.ScanStr2Int | server/server.go:113-136 | The character loop of `str2Int` computes `Str2Int`. |
| Numbers.ParseFormatted | server/server.go:83-136 | Both parsers read back the decimal text of any integer, as a client writes it with `%d`. |
| Numbers.LenientAgreesWithStrict | server/server.go:83-136 | On text the strict parser accepts, and which has no `+`, the lenient parser gives the same value. |
| Numbers.SignDroppedOnBadDigit | server/server.go:122-128 | `str2Int("-1x")` is 1, and the strict parser refuses `-1x`. |
| Numbers.LoneSigns | server/server.go:89-98 | A lone `+` passes the strict parser as 0. A lone `-` fails it. The lenient parser reads `+` as 0. |
| Numbers.OutOfRangeTtlIsDefault | server/server.go:72-81 | The TTL fields `10` and `1000` both give `(300, false)`, and `600` gives `(600, true)`. |
| TrieNodes.WordsIffHasWord | cache/cache.go:152-159 | The words collected from a node are exactly the strings whose path ends at a terminal node. |
| TrieNodes.Walk | cache/cache.go:139-146 | Following `p` from a node reaches a node whose words are the node's words after `p`. A missing step means no word starts with `p`. In a pruned tree the reached node is pruned, and below the root it holds a word. |
| TrieNodes.InsertPath | cache/cache.go:71-78 | Creating the path of `w` and marking its end adds exactly `w` to the words and keeps the tree pruned. |
| TrieNodes.DeleteWord | cache/cache.go:186-205 | `deleteWord` removes exactly `w` from the words and keeps the tree pruned. When it reports that the node may be dropped, the node has become empty. |
| TrieNodes.DeleteWordFlag | cache/cache.go:186-205 | In a pruned tree, `deleteWord` reports that the node may be dropped iff `w` is its only word. |
| TrieNodes.LiveHasWord | cache/cache.go:238-239 | In a pruned tree, every node that is terminal or has children holds at least one word. |
| TrieNodes.DeletePrefixNode | cache/cache.go:207-243 | Clearing the node of `p` and pruning the path above it removes exactly the words that begin with `p`. It keeps the tree pruned and changes nothing when the path of `p` is missing. |
| TrieCache.KeysAreWords | cache/cache.go:118-126 | Under the invariant, the keys of the timer index are the words of the tree, and the empty key is never stored. |
| TrieCache.NewTrie | cache/cache.go:26-32 | A new trie has no words and no timers, keeps the given default duration and satisfies the invariant. |
| TrieCache.InsertWord | cache/cache.go:64-97 | A stored key keeps the tree unchanged, and its generation goes up by exactly one. A new key is added to the tree with generation 0. Either way the timer carries the new duration, other entries are unchanged and the call succeeds. |
| TrieCache.Insert | cache/cache.go:34-43 | The empty word is refused with no change. Any other word becomes live with the given TTL: a stored word keeps its tree and has its generation bumped, and a new one starts at generation 0. Other timers and the default duration are untouched. |
| TrieCache.Search | cache/cache.go:99-116 | An exact search is true iff the word is non-empty and stored. A prefix search is true iff the word is non-empty and some stored key extends it. |
| TrieCache.WordsWithPrefix | cache/cache.go:139-159 | The collected words are exactly the stored keys that begin with `p`. A missing path gives none. |
| TrieCache.GetWordsWithPrefix | cache/cache.go:128-137 | The empty prefix gives nothing. Any other prefix gives the stored keys that begin with it. |
| TrieCache.InsertConditional | cache/cache.go:45-58 | Success iff both parts are non-empty and fewer than `maxCount` stored keys begin with `prefix`. The count is checked before any refresh. A refusal changes nothing, other timers are untouched, the cap bounds the prefix's keys, the default duration is untouched, and the invariant is kept. |
| TrieCache.InsertConditionalDefaultDuration | cache/cache.go:60-62 | The same admission as `InsertConditional`, and an admitted key is armed with the engine's default duration. A refresh bumps the generation and keeps the tree, and a new key starts at generation 0. The key set grows by exactly that key. Other timers are untouched, the cap bounds the prefix's keys, the default duration is unchanged, and the invariant is kept. |
| TrieCache.RemoveKey | cache/cache.go:176-180 | Dropping a stored key removes it from the timer index and from the tree and from nowhere else, and keeps the invariant. |
| TrieCache.DeletePrefix | cache/cache.go:207-243 | Removes exactly the keys beginning with the prefix from both the tree and the timer index. A missing path changes nothing. The default duration is unchanged. |
| TrieCache.Delete | cache/cache.go:165-184 | Succeeds iff the word is non-empty, whether or not anything was stored. A single delete removes just that key. A prefix delete removes every key beginning with the word. The default duration is unchanged. |
| TrieCache.DeleteSingle | cache/cache.go:161-163 | Deletes the key `prefix + suffix`. It answers true whenever that key is non-empty. The default duration is unchanged. |
| TrieCache.OnTimer | cache/cache.go:82-91 | A firing removes the key iff the key is still stored with the generation the firing carries. Any other firing is a no-op. |
| TrieCache.Expire | cache/cache.go:80-91 | As armed, every firing carries generation 0. It removes a key that was never refreshed. A refreshed key, or a key no longer stored, is left as it was, with nothing else changed. |
| TrieCache.GetWords | cache/cache.go:118-126 | The listing splits on CRLF into the keys of the timer index in visiting order, each exactly once, followed by one empty part. |
| TrieCache.RefreshCanBeRefused | cache/cache.go:53-57 | Under a count of 1 or less, a stored key's own presence blocks its refresh. The call answers false and changes nothing. |
| TrieCache.SecondSendRefused | cache/cache.go:53-57 | From an empty trie, a key admitted under count 1 is refused when it is sent again with count 1. |
| TrieCache.InsertConditionalRefreshFirst | cache/cache.go:45-68 | With the refresh taken first, a stored key always refreshes, whatever the count. A new key is admitted exactly as before, and the cap still bounds the prefix's keys. |
| TrieCache.AdmissionCap | cache/cache.go:53-57 | Sending new distinct suffixes under a prefix that holds `n` keys, the `i`-th is admitted iff `n + i < maxCount`. |
| TrieCache.AdmittedAreLive | cache/cache.go:53-62 | Every key a run of inserts answers true for is live at the end of the run. |
| TrieCache.AdmissionBound | cache/cache.go:53-57 | After a run of new distinct suffixes, the prefix holds no more than `max(n, maxCount)` keys. |
| TrieCache.RefreshedKeyNeverExpires | cache/cache.go:64-91 | After a refresh, and after any further refresh, expiry as armed leaves the key in place. |
| TrieCache.RefreshedKeyExpiresOnLatestTimer | cache/cache.go:80-91 | When a firing carries the generation of the call that armed it, the latest timer removes the key. A timer armed before a refresh leaves the key alone. |
| TrieCache.FreshKeyExpires | cache/cache.go:80-91 | Expiry of a key that was never refreshed restores the previous key set and keeps the invariant. |
| FlatCache.NewMemCache | cache/cache2.go:15-20 | A new cache holds no pair and keeps the default duration. |
| FlatCache.InsertOrRefresh | cache/cache2.go:26-54 | An empty part is refused with no change. A live pair is re-armed and answered true, whatever the count. A new suffix is admitted iff the group holds fewer than `maxCount` suffixes. The prefix is registered even on refusal, and no other pair changes. |
| FlatCache.InsertOrRefreshDD | cache/cache2.go:22-24 | `InsertOrRefresh` with the engine's default duration: with both parts non-empty it succeeds iff the pair is live or the group is below the count, and an admitted pair is armed with the default duration. Other pairs keep their timers, the prefix is registered even on refusal, the group stays within the count, the default duration is unchanged, and the invariant is kept. |
| FlatCache.Delete | cache/cache2.go:71-95 | Answers true iff both parts are non-empty and the pair was live. It removes only that pair, and drops the prefix exactly when its group had one suffix. |
| FlatCache.Expire | cache/cache2.go:51 | The timer callback removes a live pair and answers true, dropping the prefix when its inner map empties, as `delete` does at lines 87-88. Other pairs keep their timers. For a pair already gone it is a no-op that answers false. The default duration is unchanged, and both invariants are kept. |
| FlatCache.EmptyGroupNeedsNonPositiveCount | cache/cache2.go:34-49 | A refused insert for an unregistered prefix leaves an empty group, and this happens only when the count is 0 or less. With a positive count, no empty group appears. |
| FlatCache.AdmissionCap | cache/cache2.go:41-53 | Sending new distinct suffixes under a group of size `n`, the `i`-th is admitted iff `n + i < maxCount`. Admitted suffixes are live, and the group never grows past `max(n, maxCount)`. |
| FlatCache.RefreshAfterAdmission | cache/cache2.go:41-45 | After such a run, sending any admitted suffix again succeeds whatever count it carries. |
| FlatCache.GetWords | cache/cache2.go:56-69 | The listing parses back into one group per prefix, in visiting order. Each group lists that prefix's suffixes exactly once. The listing ends in CRLF, with nothing after the last line. |
| FlatCache.ListingSplit | cache/cache2.go:60-66 | The prefix line followed by tab-indented suffix lines, each ending in CRLF, splits on CRLF into exactly those lines plus one empty tail: nothing follows the last CRLF. |
| FlatCache.ListingRoundTrip | cache/cache2.go:60-66 | The prefix line followed by tab-indented suffix lines, each ending in CRLF, parses back into the groups it was written from. |
| Server.Decode | server/server.go:225-258 | The list command is recognised iff the first CRLF line is `xxx`. A line of fewer than two fields cannot be answered. Prefix and suffix are the first two fields. Three fields give a refusal, an insert with the count or a delete, by the sign of the lenient count. Four fields give a refusal iff the count is 0, and otherwise an insert with the range-checked TTL (in `[300, 900]`) and the count. Five or more fields are refused. |
| Server.DecodeEncode | server/server.go:225-258 | Every request a client can write decodes back to itself, alone or followed by a CRLF and further text. |
| Server.Result | server/server.go:263-265 | The reply splits on `\|\|` into the prefix, the suffix and `true` or `false`. |
| Server.ReplyCorrelates | server/server.go:263-265 | A client can recover the prefix, the suffix and the flag from the reply. |
| Server.ProcessPdu | server/server.go:187-223 | The list command changes nothing. A line of fewer than two fields crashes and nothing else does. Every answer is `result` of the first two fields. A refused line answers false with no change. The trie invariant is kept. |
| Server.ProcessPdu2 | server/server.go:225-261 | The same dispatch on the flat-map engine, which keeps its invariant. |
| Server.ListCommandIsReadOnly | server/server.go:227-232 | `xxx`, alone or before a CRLF, leaves both engines unchanged and is answered with the listing. |
| Server.ThreeFieldsOnMemCache | server/server.go:239-247 | A zero count answers false with no change. A positive count refreshes a live pair with the default TTL or admits a new one below the cap. A negative count deletes the pair and answers whether it was live. A newly admitted pair is stored with the default TTL, and with any non-zero count every other pair stays live or absent as before. |
| Server.ThreeFieldsOnTrie | server/server.go:201-209 | A zero count answers false with no change. A positive count answers the admission check. A negative count removes the key and answers true for any non-empty key. A refused positive count leaves the trie unchanged, and an admitted one leaves every other key and its timer as it was. |
| Server.ThreeFields | server/server.go:201-209 | On every three-field line, on both engines: a zero count answers false and changes nothing. A positive count is exactly the engine's insert with its default duration (`processPDU2` at 239-247 does the same). A negative count is exactly its single-pair delete. The reply carries the engine's flag. |
| Server.FourFieldsNeverDelete | server/server.go:248-255 | A four-field line removes nothing from either engine, even with a negative count. A live pair is re-armed with the range-checked TTL and answered true. |
| Server.FourFields | server/server.go:210-218 | On every four-field line, on both engines: a zero count answers false and changes nothing. Any other count, negative included, runs the engine's insert with the range-checked TTL and that count, and the reply carries the insert's flag. `processPDU2` does the same at server/server.go:248-255. |
| Server.ProtocolScenario | server/server.go:225-261 | On an empty flat-map cache, `abc\|\|def\|\|5` answers `abc\|\|def\|\|true` and makes the pair live. `abc\|\|def\|\|-1` then answers true and removes it. |
| Server.ProtocolScenarioOnTrie | server/server.go:187-223 | The same two datagrams on an empty trie give the same replies and make `abcdef` live and then dead. |
| Server.ClampingLine | server/server.go:248-254 | `abc\|\|def\|\|10\|\|5` decodes to an insert with TTL 300 and count 5. |
| Server.ClampingScenario | server/server.go:248-255 | That line is admitted, and the pair is armed with TTL 300. |
| Server.SingleFieldLineCrashes | server/server.go:256-260 | `hello` crashes both dispatches: the reply reads a second field that does not exist. |
| Server.ProcessPdu2Guarded | server/server.go:256-260 | With malformed lines dropped, nothing crashes. A line of fewer than two fields changes nothing and gets no reply. Every other datagram is handled as before. |
| LegacyServer.ProcessPdu | server.go:185-200 | The legacy handler never removes a key. It adds at most the key of the first two fields, leaves other timers alone, and makes no engine call for field counts other than 3 or 4. |
| LegacyServer.NonPositiveCountChangesNothing | server.go:190-192 | A three-field datagram whose count is 0 or negative goes to the insert, which refuses it, so nothing changes. |
| LegacyServer.AgreesOnInserts | server.go:185-200 | On a one-line datagram that the current handler treats as an insert, the legacy handler reaches the same trie. |
| LegacyServer.DeleteLineKeepsKey | server.go:190-192 | A delete line removes the key in the current handler but leaves the trie unchanged in the legacy one. |

## Left out

- Sockets, the receive loop, the worker goroutines, the packet channel, the buffer pool, the wait group and the relaunch supervisor are I/O and concurrency plumbing. A datagram enters the model as a string, and a reply leaves as a `Server.Reply` value.
- `processPacket` skips empty datagrams. `Server.ProcessPdu` and `Server.ProcessPdu2` also accept the empty string, and answer it with `Crash` as `processPDU` would.
- Real timers, `Reset` and `Stop` are not modelled. Expiry is an explicit event. A stale flat-map callback that fires after a delete and re-insert is a scheduling race, and this model has no scheduler.
- The read-write mutex is not modelled: every public method is one atomic step.
- Go's map iteration order is not modelled. The listings take the visiting order as a parameter that must enumerate the keys exactly once.
- `Server.Reply.Listing` stands for the listing reply. Its text is described by `TrieCache.GetWords` and `FlatCache.GetWords`.
- The insert path walks runes but the delete paths index bytes. Keys are modelled as sequences of characters, one trie step each. This matches the source only for ASCII keys (below 0x80), where the rune walk and the byte walk agree; a lone byte from 0x80 to 0xFF is read as U+FFFD on insert but as U+0080 to U+00FF on delete.
- The parsers are generic over Go's integer widths. The model uses unbounded integers and has no overflow.
- Log output is not modelled.
- client.go (the network client) and main.go (argument and environment bootstrap) are not part of this model. Neither is the start-up parse of the default duration, beyond the parser itself.
- TrieCache.GetWords: the listing is stated only when no key contains CR or LF; with such keys the lines are ambiguous.
- FlatCache.GetWords: the listing is stated only when no prefix or suffix contains CR or LF and no prefix begins with a tab, for the same reason.
- Server.Result: the three-field split of the reply is stated only when the prefix and suffix contain no `|`.

## Findings

| source | as written | input that shows it | evidently intended | confidence | as-written member | corrected member |
|---|---|---|---|---|---|---|
| cache/cache.go:80-91 | The expiry closure compares the stored generation with the local `generation`, which is 0 when captured and never changes. | Insert a key, then refresh it (generation 1). When its timer fires, the key is not removed, and no later timer removes it either. | Each firing carries the generation its timer was armed with, so the latest timer removes the key and older ones are no-ops (proved in `TrieCache.RefreshedKeyExpiresOnLatestTimer`). | high; not executed | TrieCache.RefreshedKeyNeverExpires | TrieCache.OnTimer |
| cache/cache.go:53-57 | The count of keys under the prefix is checked before the refresh path, so a stored key counts against its own refresh. | Admit `a`+`b` with count 1, then send `a`,`b`,1 again: the answer is false and the timer is not re-armed. | A stored key is always refreshed, as the flat-map engine does (lines 41-45 of cache/cache2.go). | medium; not executed | TrieCache.SecondSendRefused | TrieCache.InsertConditionalRefreshFirst |
| server/server.go:256-260 | The default branch logs the bad line and then reads `items[1]` for the reply. | The datagram `hello`: the split has one field, the index panics, and the worker goroutine has no `recover`, so the process stops. | Log and drop the datagram. | medium; not executed | Server.SingleFieldLineCrashes | Server.ProcessPdu2Guarded |

=== FILE: flat_cache.dfy ===
/**
 The flat-map cache engine: a map from prefix to an inner map from suffix to
 that entry's timer. Each public operation is one atomic step. A timer is
 represented by the duration it was last armed with; its firing is the
 explicit event `Expire`.
 */
module FlatCache {
  import opened Text
  import opened Runs

  /** `MemCache`: the default duration and, per prefix, its suffixes with their timers. */
  datatype MemCache = MemCache(duration: Duration, datamap: map<string, map<string, Duration>>)

  /** The pair `(p, s)` is live. */
  predicate Has(m: MemCache, p: string, s: string)
  {
    p in m.datamap && s in m.datamap[p]
  }

  /** The number of live suffixes under `p`, 0 when `p` has no inner map. */
  function GroupSize(m: MemCache, p: string): nat
  {
    if p in m.datamap then |m.datamap[p]| else 0
  }

  /** No prefix and no suffix is empty: the guards of both mutators keep this. */
  ghost predicate Valid(m: MemCache)
  {
    forall p :: p in m.datamap ==> p != [] && forall s :: s in m.datamap[p] ==> s != []
  }

  /** Every registered prefix has at least one live suffix. */
  ghost predicate NoEmptyGroups(m: MemCache)
  {
    forall p :: p in m.datamap ==> |m.datamap[p]| > 0
  }

  /** `NewMemCache`: no entries and the given default duration. */
  function NewMemCache(dur: Duration): (m: MemCache)
    ensures Valid(m) && NoEmptyGroups(m)
    ensures m.duration == dur && forall p, s :: !Has(m, p, s)
  {
    MemCache(dur, map[])
  }

  /**
   `InsertOrRefresh`: refuses an empty prefix or suffix. Otherwise it
   registers an inner map for the prefix if there is none; a present suffix
   has its timer re-armed and the call succeeds whatever `maxCount` is; a new
   suffix is admitted only while the inner map holds fewer than `maxCount`
   suffixes.
   */
  function InsertOrRefresh(m: MemCache, prefix: string, suffix: string, d: Duration, maxCount: int): (r: (MemCache, bool))
    ensures prefix == [] || suffix == [] ==> r == (m, false)
    ensures prefix != [] && suffix != [] && Has(m, prefix, suffix) ==> r.1
    ensures prefix != [] && suffix != [] && !Has(m, prefix, suffix) ==>
      (r.1 <==> GroupSize(m, prefix) < maxCount)
    ensures forall p, s :: Has(r.0, p, s) <==> Has(m, p, s) || (r.1 && p == prefix && s == suffix)
    ensures r.1 ==> Has(r.0, prefix, suffix) && r.0.datamap[prefix][suffix] == d
    ensures forall p, s :: Has(m, p, s) && (p, s) != (prefix, suffix) ==>
      Has(r.0, p, s) && r.0.datamap[p][s] == m.datamap[p][s]
    ensures prefix != [] && suffix != [] ==> r.0.datamap.Keys == m.datamap.Keys + {prefix}
    ensures r.1 ==> GroupSize(r.0, prefix) <= if Has(m, prefix, suffix) then GroupSize(m, prefix) else maxCount
    ensures r.0.duration == m.duration
    ensures Valid(m) ==> Valid(r.0)
  {
    if prefix == [] || suffix == [] then (m, false)
    else if !Has(m, prefix, suffix) && GroupSize(m, prefix) >= maxCount then (Register(m, prefix), false)
    else (Store(m, prefix, suffix, d), true)
  }

  /** The inner map of `prefix`, empty when the prefix has none. */
  function Inner(m: MemCache, prefix: string): map<string, Duration>
  {
    if prefix in m.datamap then m.datamap[prefix] else map[]
  }

  /** Gives `prefix` an inner map, empty if it had none; no pair changes. */
  function Register(m: MemCache, prefix: string): (r: MemCache)
    ensures forall p, s :: Has(r, p, s) <==> Has(m, p, s)
    ensures forall p, s :: Has(m, p, s) ==> Has(r, p, s) && r.datamap[p][s] == m.datamap[p][s]
    ensures r.datamap.Keys == m.datamap.Keys + {prefix}
    ensures GroupSize(r, prefix) == GroupSize(m, prefix)
    ensures r.duration == m.duration
    ensures prefix != [] && Valid(m) ==> Valid(r)
  {
    m.(datamap := m.datamap[prefix := Inner(m, prefix)])
  }

  /** Arms `(prefix, suffix)` with `d`, adding the pair when it is new; no other pair changes. */
  function Store(m: MemCache, prefix: string, suffix: string, d: Duration): (r: MemCache)
    ensures forall p, s :: Has(r, p, s) <==> Has(m, p, s) || (p == prefix && s == suffix)
    ensures Has(r, prefix, suffix) && r.datamap[prefix][suffix] == d
    ensures forall p, s :: Has(m, p, s) && (p, s) != (prefix, suffix) ==> Has(r, p, s) && r.datamap[p][s] == m.datamap[p][s]
    ensures r.datamap.Keys == m.datamap.Keys + {prefix}
    ensures GroupSize(r, prefix) == if Has(m, prefix, suffix) then GroupSize(m, prefix) else GroupSize(m, prefix) + 1
    ensures r.duration == m.duration
    ensures prefix != [] && suffix != [] && Valid(m) ==> Valid(r)
  {
    var inner := Inner(m, prefix)[suffix := d];
    assert |inner| == if suffix in Inner(m, prefix) then |Inner(m, prefix)| else |Inner(m, prefix)| + 1;
    m.(datamap := m.datamap[prefix := inner])
  }

  /** `InsertOrRefreshDD`: `InsertOrRefresh` with the engine's default duration. */
  function InsertOrRefreshDD(m: MemCache, prefix: string, suffix: string, maxCount: int): (r: (MemCache, bool))
    ensures prefix == [] || suffix == [] ==> r == (m, false)
    ensures prefix != [] && suffix != [] ==> (r.1 <==> Has(m, prefix, suffix) || GroupSize(m, prefix) < maxCount)
    ensures forall p, s :: Has(r.0, p, s) <==> Has(m, p, s) || (r.1 && p == prefix && s == suffix)
    ensures r.1 ==> Has(r.0, prefix, suffix) && r.0.datamap[prefix][suffix] == m.duration
    ensures forall p, s :: Has(m, p, s) && (p, s) != (prefix, suffix) ==>
      Has(r.0, p, s) && r.0.datamap[p][s] == m.datamap[p][s]
    ensures prefix != [] && suffix != [] ==> r.0.datamap.Keys == m.datamap.Keys + {prefix}
    ensures r.1 ==> GroupSize(r.0, prefix) <= if Has(m, prefix, suffix) then GroupSize(m, prefix) else maxCount
    ensures r.0.duration == m.duration
    ensures Valid(m) ==> Valid(r.0)
  {
    InsertOrRefresh(m, prefix, suffix, m.duration, maxCount)
  }

  /**
   `delete`: refuses an empty prefix or suffix; removes a live pair, and the
   prefix with it when its inner map becomes empty. It reports whether the
   pair was live.
   */
  function Delete(m: MemCache, prefix: string, suffix: string): (r: (MemCache, bool))
    ensures r.1 <==> prefix != [] && suffix != [] && Has(m, prefix, suffix)
    ensures !r.1 ==> r.0 == m
    ensures prefix != [] && suffix != [] ==>
      forall p, s :: Has(r.0, p, s) <==> Has(m, p, s) && (p, s) != (prefix, suffix)
    ensures forall p, s :: Has(r.0, p, s) ==> Has(m, p, s) && r.0.datamap[p][s] == m.datamap[p][s]
    ensures r.1 ==> (prefix in r.0.datamap <==> |m.datamap[prefix]| > 1)
    ensures r.0.datamap.Keys <= m.datamap.Keys
    ensures r.0.duration == m.duration
    ensures Valid(m) ==> Valid(r.0)
    ensures NoEmptyGroups(m) ==> NoEmptyGroups(r.0)
  {
    if prefix == [] || suffix == [] then (m, false)
    else if prefix in m.datamap && suffix in m.datamap[prefix] then
      var smap := m.datamap[prefix] - {suffix};
      assert |smap| == |m.datamap[prefix]| - 1;
      if |smap| == 0 then (m.(datamap := m.datamap - {prefix}), true)
      else (m.(datamap := m.datamap[prefix := smap]), true)
    else (m, false)
  }

  /**
   The timer callback armed by `InsertOrRefresh`: it deletes the pair it was
   armed for, dropping the prefix when that empties its inner map, and is a
   no-op reporting false if the pair is already gone.
   */
  function Expire(m: MemCache, prefix: string, suffix: string): (r: (MemCache, bool))
    ensures prefix != [] && suffix != [] && Has(m, prefix, suffix) ==>
      r.1 && forall p, s :: Has(r.0, p, s) <==> Has(m, p, s) && (p, s) != (prefix, suffix)
    ensures !Has(m, prefix, suffix) ==> r == (m, false)
    ensures forall p, s :: Has(r.0, p, s) ==> Has(m, p, s) && r.0.datamap[p][s] == m.datamap[p][s]
    ensures r.1 ==> (prefix in r.0.datamap <==> |m.datamap[prefix]| > 1)
    ensures r.0.datamap.Keys <= m.datamap.Keys
    ensures r.0.duration == m.duration
    ensures Valid(m) ==> Valid(r.0)
    ensures NoEmptyGroups(m) ==> NoEmptyGroups(r.0)
  {
    Delete(m, prefix, suffix)
  }

  /**
   An insert refused for a prefix with no inner map still registers an empty
   one, and only a count of 0 or less can refuse a new prefix; with a
   positive count every group stays non-empty.
   */
  lemma EmptyGroupNeedsNonPositiveCount(m: MemCache, prefix: string, suffix: string, d: Duration, maxCount: int)
    ensures var r := InsertOrRefresh(m, prefix, suffix, d, maxCount);
      prefix != [] && suffix != [] && prefix !in m.datamap && maxCount <= 0 ==>
        !r.1 && prefix in r.0.datamap && |r.0.datamap[prefix]| == 0
    ensures NoEmptyGroups(m) && maxCount > 0 ==> NoEmptyGroups(InsertOrRefresh(m, prefix, suffix, d, maxCount).0)
  {
    var r := InsertOrRefresh(m, prefix, suffix, d, maxCount);
    if prefix != [] && suffix != [] {
      if !Has(m, prefix, suffix) && GroupSize(m, prefix) >= maxCount {
        assert r.0.datamap == m.datamap[prefix := Inner(m, prefix)];
      } else {
        assert r.0.datamap == m.datamap[prefix := Inner(m, prefix)[suffix := d]];
        assert suffix in r.0.datamap[prefix];
      }
    }
  }

  /** Sends the suffixes in order under one prefix with the same count and collects the answers. */
  function InsertAll(m: MemCache, prefix: string, ss: seq<string>, d: Duration, maxCount: int): (r: (MemCache, seq<bool>))
    ensures |r.1| == |ss|
    ensures forall p, s :: Has(m, p, s) ==> Has(r.0, p, s)
    decreases |ss|
  {
    if ss == [] then (m, [])
    else
      var first := InsertOrRefresh(m, prefix, ss[0], d, maxCount);
      var rest := InsertAll(first.0, prefix, ss[1..], d, maxCount);
      (rest.0, [first.1] + rest.1)
  }

  /** One admission step for a new suffix: the answer, the new group size and the frame. */
  lemma AdmitNew(m: MemCache, prefix: string, suffix: string, d: Duration, maxCount: int)
    requires prefix != [] && suffix != [] && !Has(m, prefix, suffix)
    ensures var r := InsertOrRefresh(m, prefix, suffix, d, maxCount);
      && (r.1 <==> GroupSize(m, prefix) < maxCount)
      && GroupSize(r.0, prefix) == (if r.1 then GroupSize(m, prefix) + 1 else GroupSize(m, prefix))
      && (forall s :: Has(r.0, prefix, s) ==> Has(m, prefix, s) || s == suffix)
      && (r.1 ==> Has(r.0, prefix, suffix))
  {
    var r := InsertOrRefresh(m, prefix, suffix, d, maxCount);
    if r.1 {
      var smap := if prefix in m.datamap then m.datamap[prefix] else map[];
      assert r.0.datamap[prefix] == smap[suffix := d];
    }
  }

  /** After the first suffix is sent, the remaining distinct suffixes are still absent. */
  lemma FreshTail(m: MemCache, m1: MemCache, prefix: string, ss: seq<string>)
    requires |ss| > 0
    requires forall s :: Has(m1, prefix, s) ==> Has(m, prefix, s) || s == ss[0]
    requires forall i :: 0 <= i < |ss| ==> ss[i] != [] && !Has(m, prefix, ss[i])
    requires forall i, j :: 0 <= i < j < |ss| ==> ss[i] != ss[j]
    ensures forall i :: 0 <= i < |ss[1..]| ==> ss[1..][i] != [] && !Has(m1, prefix, ss[1..][i])
  {
    forall i | 0 <= i < |ss[1..]|
      ensures ss[1..][i] != [] && !Has(m1, prefix, ss[1..][i])
    {
      assert ss[1..][i] == ss[i + 1];
    }
  }

  /**
   The admission cap: sending new distinct suffixes under a prefix whose
   group holds `n` suffixes, the `i`-th is admitted exactly when `n + i` is
   below the count, the admitted ones are live afterwards, and the group
   never grows past the larger of `n` and the count.
   */
  lemma {:induction false} AdmissionCap(m: MemCache, prefix: string, ss: seq<string>, d: Duration, maxCount: int)
    requires prefix != []
    requires forall i :: 0 <= i < |ss| ==> ss[i] != [] && !Has(m, prefix, ss[i])
    requires forall i, j :: 0 <= i < j < |ss| ==> ss[i] != ss[j]
    ensures var r := InsertAll(m, prefix, ss, d, maxCount);
      && (forall i :: 0 <= i < |ss| ==> (r.1[i] <==> GroupSize(m, prefix) + i < maxCount))
      && (forall i :: 0 <= i < |ss| && r.1[i] ==> Has(r.0, prefix, ss[i]))
      && GroupSize(r.0, prefix) <= (if GroupSize(m, prefix) < maxCount then maxCount else GroupSize(m, prefix))
    decreases |ss|
  {
    if ss != [] {
      var n := GroupSize(m, prefix);
      var first := InsertOrRefresh(m, prefix, ss[0], d, maxCount);
      AdmitNew(m, prefix, ss[0], d, maxCount);
      var rest := InsertAll(first.0, prefix, ss[1..], d, maxCount);
      FreshTail(m, first.0, prefix, ss);
      AdmissionCap(first.0, prefix, ss[1..], d, maxCount);
      AdmissionCapStep(ss, n, maxCount, first.1, rest.1);
      var all := InsertAll(m, prefix, ss, d, maxCount);
      assert all == (rest.0, [first.1] + rest.1);
      forall i | 0 <= i < |ss| && all.1[i]
        ensures Has(all.0, prefix, ss[i])
      {
        if i > 0 {
          assert ss[1..][i - 1] == ss[i];
        }
      }
    }
  }

  /** After the run, sending any admitted suffix again succeeds whatever the count. */
  lemma RefreshAfterAdmission(m: MemCache, prefix: string, ss: seq<string>, d: Duration, maxCount: int, i: nat, again: int)
    requires prefix != []
    requires forall k :: 0 <= k < |ss| ==> ss[k] != [] && !Has(m, prefix, ss[k])
    requires forall k, j :: 0 <= k < j < |ss| ==> ss[k] != ss[j]
    requires i < |ss| && GroupSize(m, prefix) + i < maxCount
    ensures InsertOrRefresh(InsertAll(m, prefix, ss, d, maxCount).0, prefix, ss[i], d, again).1
  {
    AdmissionCap(m, prefix, ss, d, maxCount);
  }

  /** One prefix of a listing with the suffixes printed under it. */
  datatype Group = Group(prefix: string, suffixes: seq<string>)

  /** The suffix lines of a group: each suffix after a tab. */
  function Indented(ss: seq<string>): (lines: seq<string>)
    ensures |lines| == |ss|
    ensures forall i :: 0 <= i < |ss| ==> lines[i] == "\t" + ss[i]
  {
    if |ss| == 0 then [] else ["\t" + ss[0]] + Indented(ss[1..])
  }

  /** The lines of a listing: each prefix, then its suffix lines. */
  function ListingLines(gs: seq<Group>): seq<string>
  {
    if |gs| == 0 then [] else [gs[0].prefix] + Indented(gs[0].suffixes) + ListingLines(gs[1..])
  }

  /** A line that belongs to the group above it. */
  predicate IsSuffixLine(line: string)
  {
    |line| > 0 && line[0] == '\t'
  }

  /** The number of suffix lines at the head of `lines`. */
  function SuffixRun(lines: seq<string>): (k: nat)
    ensures k <= |lines|
    ensures forall i :: 0 <= i < k ==> IsSuffixLine(lines[i])
    ensures k < |lines| ==> !IsSuffixLine(lines[k])
  {
    if |lines| == 0 || !IsSuffixLine(lines[0]) then 0 else 1 + SuffixRun(lines[1..])
  }

  /** Strips the leading tab of each suffix line. */
  function Unindent(lines: seq<string>): seq<string>
    requires forall i :: 0 <= i < |lines| ==> IsSuffixLine(lines[i])
  {
    if |lines| == 0 then []
    else
      assert IsSuffixLine(lines[0]);
      [lines[0][1..]] + Unindent(lines[1..])
  }

  /** Unindenting undoes indenting. */
  lemma {:induction false} UnindentIndented(ss: seq<string>)
    ensures forall i :: 0 <= i < |ss| ==> IsSuffixLine(Indented(ss)[i])
    ensures Unindent(Indented(ss)) == ss
  {
    if |ss| > 0 {
      UnindentIndented(ss[1..]);
      assert Indented(ss)[1..] == Indented(ss[1..]);
      assert ("\t" + ss[0])[1..] == ss[0];
    }
  }

  /** Reads a listing back: a line without a leading tab opens a group, tab lines fill it. */
  function ParseListing(lines: seq<string>): seq<Group>
    decreases |lines|
  {
    if |lines| == 0 then []
    else
      var k := SuffixRun(lines[1..]);
      [Group(lines[0], Unindent(lines[1..1 + k]))] + ParseListing(lines[1 + k..])
  }

  /** Listings of groups whose prefixes do not start with a tab read back to the same groups. */
  lemma {:induction false} ParseListingLines(gs: seq<Group>)
    requires forall i :: 0 <= i < |gs| ==> !IsSuffixLine(gs[i].prefix)
    ensures ParseListing(ListingLines(gs)) == gs
  {
    if |gs| > 0 {
      var rest := ListingLines(gs[1..]);
      if |rest| > 0 {
        ListingLinesHead(gs[1..]);
      }
      UnindentIndented(gs[0].suffixes);
      ParseGroup(gs[0].prefix, Indented(gs[0].suffixes), rest);
      ParseListingLines(gs[1..]);
      assert gs == [gs[0]] + gs[1..];
    }
  }

  /** A prefix line and its suffix lines read back to one group, whatever listing follows them. */
  lemma ParseGroup(prefix: string, ind: seq<string>, rest: seq<string>)
    requires forall i :: 0 <= i < |ind| ==> IsSuffixLine(ind[i])
    requires |rest| > 0 ==> !IsSuffixLine(rest[0])
    ensures ParseListing([prefix] + ind + rest) == [Group(prefix, Unindent(ind))] + ParseListing(rest)
  {
    var lines := [prefix] + ind + rest;
    assert lines[1..] == ind + rest;
    SuffixRunOver(ind, rest);
    assert lines[1..1 + |ind|] == ind;
    assert lines[1 + |ind|..] == rest;
  }

  /** The suffix run over indented lines stops where the next group's prefix starts. */
  lemma {:induction false} SuffixRunOver(ind: seq<string>, rest: seq<string>)
    requires forall i :: 0 <= i < |ind| ==> IsSuffixLine(ind[i])
    requires |rest| > 0 ==> !IsSuffixLine(rest[0])
    ensures SuffixRun(ind + rest) == |ind|
    decreases |ind|
  {
    if |ind| > 0 {
      assert (ind + rest)[0] == ind[0];
      assert (ind + rest)[1..] == ind[1..] + rest;
      SuffixRunOver(ind[1..], rest);
    } else {
      assert ind + rest == rest;
    }
  }

  /** A non-empty listing starts with the prefix line of its first group. */
  lemma ListingLinesHead(gs: seq<Group>)
    requires |gs| > 0
    ensures |ListingLines(gs)| > 0 && ListingLines(gs)[0] == gs[0].prefix
  {
  }

  /** Groups that print one line each: no CR or LF anywhere, and no prefix starting with a tab. */
  ghost predicate PrintableGroups(gs: seq<Group>)
  {
    forall i :: 0 <= i < |gs| ==>
      && AvoidsChars(gs[i].prefix, "\r\n")
      && !IsSuffixLine(gs[i].prefix)
      && forall j :: 0 <= j < |gs[i].suffixes| ==> AvoidsChars(gs[i].suffixes[j], "\r\n")
  }

  /** Every line of a printable listing is free of CR and LF. */
  lemma {:induction false} ListingLinesAvoid(gs: seq<Group>)
    requires PrintableGroups(gs)
    ensures forall i :: 0 <= i < |ListingLines(gs)| ==> AvoidsChars(ListingLines(gs)[i], "\r\n")
  {
    if |gs| > 0 {
      ListingLinesAvoid(gs[1..]);
      var ind := Indented(gs[0].suffixes);
      forall j | 0 <= j < |ind|
        ensures AvoidsChars(ind[j], "\r\n")
      {
        assert ind[j] == "\t" + gs[0].suffixes[j];
      }
    }
  }

  /** A printable listing splits on CRLF into its lines and one empty tail: nothing follows the last CRLF. */
  lemma ListingSplit(gs: seq<Group>)
    ensures PrintableGroups(gs) ==> Split(EachLine(ListingLines(gs), "\r\n"), "\r\n") == ListingLines(gs) + [""]
  {
    if PrintableGroups(gs) {
      ListingLinesAvoid(gs);
      SplitEachLine(ListingLines(gs), "\r\n");
    }
  }

  /** A printable listing, written line by line with CRLF, reads back to its groups. */
  lemma ListingRoundTrip(gs: seq<Group>)
    ensures PrintableGroups(gs) ==> ParseListing(Lines(EachLine(ListingLines(gs), "\r\n"), "\r\n")) == gs
  {
    if PrintableGroups(gs) {
      var lines := ListingLines(gs);
      ListingSplit(gs);
      assert (lines + [""])[..|lines|] == lines;
      ParseListingLines(gs);
    }
  }

  /** The groups of a listing, in the order the prefixes and their suffixes are visited. */
  function GroupsInOrder(prefixOrder: seq<string>, suffixOrders: map<string, seq<string>>): (gs: seq<Group>)
    requires forall i :: 0 <= i < |prefixOrder| ==> prefixOrder[i] in suffixOrders
    ensures |gs| == |prefixOrder|
    ensures forall i :: 0 <= i < |gs| ==> gs[i] == Group(prefixOrder[i], suffixOrders[prefixOrder[i]])
  {
    seq(|prefixOrder|, i requires 0 <= i < |prefixOrder| => Group(prefixOrder[i], suffixOrders[prefixOrder[i]]))
  }

  /** Every prefix and suffix of `m` prints as a single line that does not look like a suffix line. */
  ghost predicate Printable(m: MemCache)
  {
    forall p :: p in m.datamap ==>
      && AvoidsChars(p, "\r\n")
      && !IsSuffixLine(p)
      && forall s :: s in m.datamap[p] ==> AvoidsChars(s, "\r\n")
  }

  /**
   `GetWords`: each prefix on its own line, followed by each of its suffixes
   on a tab-indented line, every line ending in CRLF, in the order the map
   iterations visit them. Read back, the listing gives one group per prefix,
   holding exactly that prefix's live suffixes.
   */
  function GetWords(m: MemCache, prefixOrder: seq<string>, suffixOrders: map<string, seq<string>>): (out: string)
    requires IsEnumeration(prefixOrder, m.datamap.Keys)
    requires forall p :: p in m.datamap ==> p in suffixOrders && IsEnumeration(suffixOrders[p], m.datamap[p].Keys)
    ensures Printable(m) ==>
      var gs := ParseListing(Lines(out, "\r\n"));
      && |gs| == |prefixOrder|
      && forall i :: 0 <= i < |gs| ==>
        gs[i].prefix == prefixOrder[i] && IsEnumeration(gs[i].suffixes, m.datamap[prefixOrder[i]].Keys)
    ensures Printable(m) ==> Split(out, "\r\n")[|Split(out, "\r\n")| - 1] == ""
  {
    assert forall i :: 0 <= i < |prefixOrder| ==> prefixOrder[i] in m.datamap;
    GetWordsListing(m, prefixOrder, suffixOrders);
    EachLine(ListingLines(GroupsInOrder(prefixOrder, suffixOrders)), "\r\n")
  }

  /** The listing `GetWords` writes, read back: one group per visited prefix, and nothing after the last CRLF. */
  lemma GetWordsListing(m: MemCache, prefixOrder: seq<string>, suffixOrders: map<string, seq<string>>)
    requires IsEnumeration(prefixOrder, m.datamap.Keys)
    requires forall p :: p in m.datamap ==> p in suffixOrders && IsEnumeration(suffixOrders[p], m.datamap[p].Keys)
    requires forall i :: 0 <= i < |prefixOrder| ==> prefixOrder[i] in m.datamap
    ensures var out := EachLine(ListingLines(GroupsInOrder(prefixOrder, suffixOrders)), "\r\n");
      Printable(m) ==>
      && (var gs := ParseListing(Lines(out, "\r\n"));
          && |gs| == |prefixOrder|
          && forall i :: 0 <= i < |gs| ==>
            gs[i].prefix == prefixOrder[i] && IsEnumeration(gs[i].suffixes, m.datamap[prefixOrder[i]].Keys))
      && Split(out, "\r\n")[|Split(out, "\r\n")| - 1] == ""
  {
    var gs := GroupsInOrder(prefixOrder, suffixOrders);
    if Printable(m) {
      PrintableOrder(m, prefixOrder, suffixOrders);
      ListingRoundTrip(gs);
      ListingSplit(gs);
      forall i | 0 <= i < |gs|
        ensures gs[i].prefix == prefixOrder[i] && IsEnumeration(gs[i].suffixes, m.datamap[prefixOrder[i]].Keys)
      {
        assert gs[i] == Group(prefixOrder[i], suffixOrders[prefixOrder[i]]);
      }
    }
  }

  /** The groups of a printable cache, in any visiting order, are printable. */
  lemma PrintableOrder(m: MemCache, prefixOrder: seq<string>, suffixOrders: map<string, seq<string>>)
    requires IsEnumeration(prefixOrder, m.datamap.Keys)
    requires forall p :: p in m.datamap ==> p in suffixOrders && IsEnumeration(suffixOrders[p], m.datamap[p].Keys)
    ensures Printable(m) ==> PrintableGroups(GroupsInOrder(prefixOrder, suffixOrders))
  {
    assert forall i :: 0 <= i < |prefixOrder| ==> prefixOrder[i] in m.datamap;
    if Printable(m) {
      var gs := GroupsInOrder(prefixOrder, suffixOrders);
      forall i, j | 0 <= i < |gs| && 0 <= j < |gs[i].suffixes|
        ensures AvoidsChars(gs[i].suffixes[j], "\r\n")
      {
        assert gs[i].suffixes[j] in m.datamap[prefixOrder[i]];
      }
    }
  }
}

=== FILE: legacy_server.dfy ===
/**
 The legacy request handler at the repository root. It shares the integer
 parsers of `Numbers` (its copies read the same) and drives the trie engine,
 but it splits the whole datagram on `||` without looking for a CRLF, never
 deletes, and sends no reply.
 */
module LegacyServer {
  import opened Text
  import opened Numbers
  import TrieCache
  import Server

  /**
   The legacy `processPDU`: three fields insert with the default duration and
   the parsed count, whatever its sign; four fields insert with the
   range-checked TTL and the parsed count; any other field count makes no
   engine call. Only the engine's new state results.
   */
  function ProcessPdu(t: TrieCache.Trie, data: string): (r: TrieCache.Trie)
    ensures t.timers.Keys <= r.timers.Keys
    ensures var items := Split(data, Server.Separator);
      && (|items| != 3 && |items| != 4 ==> r == t)
      && (|items| == 3 || |items| == 4 ==>
            && r.timers.Keys <= t.timers.Keys + {items[0] + items[1]}
            && forall k :: k in t.timers && k != items[0] + items[1] ==> r.timers[k] == t.timers[k])
    ensures TrieCache.Valid(t) ==> TrieCache.Valid(r)
  {
    var items := Split(data, Server.Separator);
    if |items| == 3 then
      TrieCache.InsertConditionalDefaultDuration(t, items[0], items[1], Str2Int(items[2])).0
    else if |items| == 4 then
      var (dur, _) := Str2IntDefaultMinMax(items[2], Server.DefaultTtl, Server.MinTtl, Server.MaxTtl);
      TrieCache.InsertConditional(t, items[0], items[1], dur, Str2Int(items[3])).0
    else t
  }

  /** A three-field datagram with a count of 0 or less changes nothing: the count check refuses it. */
  lemma NonPositiveCountChangesNothing(t: TrieCache.Trie, data: string)
    requires TrieCache.Valid(t)
    requires |Split(data, Server.Separator)| == 3 && Str2Int(Split(data, Server.Separator)[2]) <= 0
    ensures ProcessPdu(t, data) == t
  {
  }

  /**
   On a single-line datagram that is not the list command and that the
   current handler turns into an insert, the legacy handler leaves the trie
   in the same state.
   */
  lemma AgreesOnInserts(t: TrieCache.Trie, data: string)
    requires AvoidsChars(data, Server.LineBreak) && data != Server.ListCommand
    requires Server.Decode(data).InsertDefault? || Server.Decode(data).InsertWithTtl?
    ensures ProcessPdu(t, data) == Server.ProcessPdu(t, data).0
  {
    Server.FirstLineOf(data, []);
  }

  /**
   A delete line `prefix||suffix||-n` removes a live key in the current
   handler, but the legacy handler sends the negative count to the insert,
   which refuses it, so the key stays.
   */
  lemma DeleteLineKeepsKey(t: TrieCache.Trie, data: string)
    requires TrieCache.Valid(t) && AvoidsChars(data, Server.LineBreak)
    requires Server.Decode(data).DeletePair?
    ensures var items := Split(data, Server.Separator);
      && ProcessPdu(t, data) == t
      && items[0] + items[1] !in Server.ProcessPdu(t, data).0.timers
  {
    Server.FirstLineOf(data, []);
  }
}

=== FILE: numbers.dfy ===
/**
 The three decimal parsers of the server (`str2IntCheck`, `str2IntDefaultMinMax`
 and `str2Int`), their loop forms, and the decimal formatter a client uses to
 write the numeric fields of a request. The Go parsers are generic over the
 signed integer widths; every call site instantiates them at `int`, and the
 model uses unbounded integers.
 */
module Numbers {

  predicate IsDigit(c: char)
  {
    '0' <= c <= '9'
  }

  predicate AllDigits(s: string)
  {
    forall i :: 0 <= i < |s| ==> IsDigit(s[i])
  }

  function DigitValue(c: char): (v: nat)
    requires IsDigit(c)
    ensures v < 10
  {
    c as int - '0' as int
  }

  function DigitChar(v: nat): (c: char)
    requires v < 10
    ensures IsDigit(c) && DigitValue(c) == v
  {
    ('0' as int + v) as char
  }

  /** The value of a digit string read left to right, `out = out*10 + digit`. */
  function DecimalValue(d: string): nat
    requires AllDigits(d)
  {
    if |d| == 0 then 0 else DecimalValue(d[..|d| - 1]) * 10 + DigitValue(d[|d| - 1])
  }

  /** The longest prefix of `s` made of digits only. */
  function LeadingDigits(s: string): (p: string)
    ensures p <= s && AllDigits(p)
    ensures |p| < |s| ==> !IsDigit(s[|p|])
  {
    if |s| == 0 || !IsDigit(s[0]) then ""
    else
      var rest := LeadingDigits(s[1..]);
      assert s == [s[0]] + s[1..];
      [s[0]] + rest
  }

  /** A digit prefix followed by a non-digit (or the end) is the leading-digit run. */
  lemma {:induction false} LeadingDigitsUnique(s: string, k: nat)
    requires k <= |s| && AllDigits(s[..k])
    requires k < |s| ==> !IsDigit(s[k])
    ensures LeadingDigits(s) == s[..k]
  {
    if k > 0 {
      assert s[1..][..k - 1] == s[..k][1..];
      LeadingDigitsUnique(s[1..], k - 1);
      assert s[..k] == [s[0]] + s[1..][..k - 1];
    }
  }

  /** The digits that follow an optional sign accepted by `str2IntCheck`. */
  function Unsigned(s: string): string
  {
    if |s| > 0 && (s[0] == '-' || s[0] == '+') then s[1..] else s
  }

  /**
   The strings `str2IntCheck` accepts: non-empty, at most one leading sign,
   digits after it, and at least one digit after a minus.
   */
  predicate IsCheckedDecimal(s: string)
  {
    |s| > 0 && AllDigits(Unsigned(s)) && (s[0] == '-' ==> |s| >= 2)
  }

  /**
   `str2IntCheck`: the signed decimal value and `true` for a well-formed
   string; otherwise `false`, with the digits read before the first bad
   character as the (ignored) value.
   */
  function Str2IntCheck(s: string): (r: (int, bool))
    ensures r.1 <==> IsCheckedDecimal(s)
    ensures r.1 ==> r.0 == if s[0] == '-' then -(DecimalValue(Unsigned(s)) as int) else DecimalValue(Unsigned(s))
    ensures !r.1 ==> r.0 >= 0
  {
    if |s| == 0 then (0, false)
    else if s[0] == '-' && |s| == 1 then (0, false)
    else
      var body := if s[0] == '-' || s[0] == '+' then s[1..] else s;
      var digits := LeadingDigits(body);
      if |digits| < |body| then (DecimalValue(digits), false)
      else
        assert digits == body;
        if s[0] == '-' then (-(DecimalValue(body) as int), true) else (DecimalValue(body), true)
  }

  /**
   `str2IntDefaultMinMax`: the parsed value and `true` when it parses and lies
   in `[minN, maxN]`; otherwise the default `d` and `false`. An out-of-range
   value is replaced by the default, never by the nearer bound.
   */
  function Str2IntDefaultMinMax(s: string, d: int, minN: int, maxN: int): (r: (int, bool))
    ensures r.1 <==> IsCheckedDecimal(s) && minN <= Str2IntCheck(s).0 <= maxN
    ensures r.1 ==> r.0 == Str2IntCheck(s).0
    ensures !r.1 ==> r.0 == d
    ensures minN <= d <= maxN ==> minN <= r.0 <= maxN
  {
    var (out, ok) := Str2IntCheck(s);
    if ok then
      if out < minN || out > maxN then (d, false) else (out, true)
    else (d, false)
  }

  /**
   `str2Int`: reads an optional minus and digits. It has no `+`, and at the
   first non-digit it returns the digits read so far without the sign.
   */
  function Str2Int(s: string): (r: int)
    ensures r < 0 ==> |s| >= 2 && s[0] == '-' && AllDigits(s[1..])
    ensures |s| > 0 && s[0] == '-' && AllDigits(s[1..]) ==> r == -(DecimalValue(s[1..]) as int)
    ensures (|s| == 0 || s[0] != '-') ==> r == DecimalValue(LeadingDigits(s))
    ensures |s| > 0 && s[0] == '-' && !AllDigits(s[1..]) ==> r == DecimalValue(LeadingDigits(s[1..]))
  {
    if |s| == 0 then 0
    else
      var neg := s[0] == '-';
      var body := if neg then s[1..] else s;
      var digits := LeadingDigits(body);
      if |digits| < |body| then
        assert !AllDigits(body) by { assert !IsDigit(body[|digits|]); }
        DecimalValue(digits)
      else
        assert digits == body;
        if neg then -(DecimalValue(body) as int) else DecimalValue(body)
  }

  /** One more digit read: the value of the longer run is ten times the old plus the digit. */
  lemma DecimalStep(s: string, idx: nat, i: nat)
    requires idx <= i < |s| && AllDigits(s[idx..i]) && IsDigit(s[i])
    ensures AllDigits(s[idx..i + 1])
    ensures DecimalValue(s[idx..i + 1]) == DecimalValue(s[idx..i]) * 10 + DigitValue(s[i])
  {
    assert s[idx..i + 1][..i - idx] == s[idx..i];
  }

  /** The loop of `str2IntCheck`, character by character; it computes `Str2IntCheck`. */
  method ScanStr2IntCheck(s: string) returns (out: int, ok: bool)
    ensures ok <==> IsCheckedDecimal(s)
    ensures (out, ok) == Str2IntCheck(s)
  {
    out := 0;
    if |s| == 0 {
      return out, false;
    }
    var idx := 0;
    var isN := s[idx] == '-';
    if isN {
      idx := idx + 1;
      if |s| == 1 {
        return out, false;
      }
    } else if s[idx] == '+' {
      idx := idx + 1;
    }
    var i := idx;
    while i < |s|
      invariant idx <= i <= |s|
      invariant AllDigits(s[idx..i])
      invariant out == DecimalValue(s[idx..i])
    {
      if s[i] < '0' || s[i] > '9' {
        assert s[idx..][..i - idx] == s[idx..i];
        LeadingDigitsUnique(s[idx..], i - idx);
        return out, false;
      }
      DecimalStep(s, idx, i);
      out := out * 10 + DigitValue(s[i]);
      i := i + 1;
    }
    assert s[idx..i] == s[idx..];
    LeadingDigitsUnique(s[idx..], |s| - idx);
    if isN {
      out := -out;
    }
    return out, true;
  }

  /** The loop of `str2Int`, character by character; it computes `Str2Int`. */
  method ScanStr2Int(s: string) returns (out: int)
    ensures out == Str2Int(s)
  {
    out := 0;
    if |s| == 0 {
      return out;
    }
    var idx := 0;
    var isN := s[idx] == '-';
    if isN {
      idx := idx + 1;
    }
    var i := idx;
    while i < |s|
      invariant idx <= i <= |s|
      invariant AllDigits(s[idx..i])
      invariant out == DecimalValue(s[idx..i])
    {
      if s[i] < '0' || s[i] > '9' {
        assert s[idx..][..i - idx] == s[idx..i];
        LeadingDigitsUnique(s[idx..], i - idx);
        return out;
      }
      DecimalStep(s, idx, i);
      out := out * 10 + DigitValue(s[i]);
      i := i + 1;
    }
    assert s[idx..i] == s[idx..];
    LeadingDigitsUnique(s[idx..], |s| - idx);
    if isN {
      return -out;
    }
    return out;
  }

  /** Canonical decimal digits of a natural number (`strconv.Itoa` for `n >= 0`). */
  function FormatNat(n: nat): (s: string)
    ensures |s| >= 1 && AllDigits(s)
    ensures DecimalValue(s) == n
  {
    if n < 10 then [DigitChar(n)]
    else
      var s := FormatNat(n / 10) + [DigitChar(n % 10)];
      assert s[..|s| - 1] == FormatNat(n / 10);
      s
  }

  /** Canonical signed decimal text of an integer, as `%d` writes it. */
  function FormatInt(n: int): (s: string)
    ensures |s| >= 1
  {
    if n < 0 then "-" + FormatNat(-n) else FormatNat(n)
  }

  /** Both strict and lenient parsers read back every integer `%d` writes. */
  lemma ParseFormatted(n: int)
    ensures Str2IntCheck(FormatInt(n)) == (n, true)
    ensures Str2Int(FormatInt(n)) == n
  {
    var s := FormatInt(n);
    if n < 0 {
      assert s[1..] == FormatNat(-n);
    }
  }

  /** Where `str2IntCheck` accepts a string without a plus sign, `str2Int` reads the same value. */
  lemma LenientAgreesWithStrict(s: string)
    requires Str2IntCheck(s).1 && s[0] != '+'
    ensures Str2Int(s) == Str2IntCheck(s).0
  {
  }

  /** `str2Int` drops the minus sign when a non-digit follows, so "-1x" reads as 1. */
  lemma SignDroppedOnBadDigit()
    ensures Str2Int("-1x") == 1
    ensures Str2IntCheck("-1x").1 == false
  {
    assert LeadingDigits("1x") == "1" by {
      LeadingDigitsUnique("1x", 1);
      assert "1x"[..1] == "1";
    }
    assert "1"[..0] == "";
  }

  /** A lone "+" is accepted as 0; a lone "-" is refused. */
  lemma LoneSigns()
    ensures Str2IntCheck("+") == (0, true)
    ensures Str2IntCheck("-") == (0, false)
    ensures Str2Int("+") == 0
  {
  }

  /** An out-of-range TTL gives the default 300, on either side of `[300, 900]`. */
  lemma OutOfRangeTtlIsDefault()
    ensures Str2IntDefaultMinMax("10", 300, 300, 900) == (300, false)
    ensures Str2IntDefaultMinMax("1000", 300, 300, 900) == (300, false)
    ensures Str2IntDefaultMinMax("600", 300, 300, 900) == (600, true)
  {
    TtlBelowRange();
    TtlAboveRange();
    TtlInRange();
  }

  /** A TTL of 10 is below the range. */
  lemma TtlBelowRange()
    ensures Str2IntDefaultMinMax("10", 300, 300, 900) == (300, false)
  {
    assert DecimalValue("10") == 10 by {
      assert "10"[..1] == "1" && "1"[..0] == "";
    }
    LeadingDigitsUnique("10", 2);
    assert "10"[..2] == "10";
  }

  /** A TTL of 1000 is above the range. */
  lemma TtlAboveRange()
    ensures Str2IntDefaultMinMax("1000", 300, 300, 900) == (300, false)
  {
    assert DecimalValue("1000") == 1000 by {
      assert "1000"[..3] == "100" && "100"[..2] == "10";
      assert "10"[..1] == "1" && "1"[..0] == "";
    }
    LeadingDigitsUnique("1000", 4);
    assert "1000"[..4] == "1000";
  }

  /** A TTL of 600 is inside the range and kept. */
  lemma TtlInRange()
    ensures Str2IntDefaultMinMax("600", 300, 300, 900) == (600, true)
  {
    assert DecimalValue("600") == 600 by {
      assert "600"[..2] == "60" && "60"[..1] == "6" && "6"[..0] == "";
    }
    LeadingDigitsUnique("600", 3);
    assert "600"[..3] == "600";
  }
}

=== FILE: runs.dfy ===
/**
 What the two cache engines share: the duration a timer is armed with, and
 the bookkeeping of a run of sends under one prefix.
 */
module Runs {

  /** A duration; nothing here reads a clock, so it is only recorded. */
  type Duration = int

  /** The answers of a run are its first answer followed by the answers of the rest. */
  lemma AdmissionCapStep(ss: seq<string>, n: int, maxCount: int, first: bool, rest: seq<bool>)
    requires |ss| > 0 && |rest| == |ss| - 1
    requires first <==> n < maxCount
    requires first ==> forall i :: 0 <= i < |rest| ==> (rest[i] <==> n + 1 + i < maxCount)
    requires !first ==> forall i :: 0 <= i < |rest| ==> (rest[i] <==> n + i < maxCount)
    ensures forall i :: 0 <= i < |ss| ==> (([first] + rest)[i] <==> n + i < maxCount)
  {
    forall i | 0 <= i < |ss|
      ensures ([first] + rest)[i] <==> n + i < maxCount
    {
      if i > 0 {
        assert ([first] + rest)[i] == rest[i - 1];
      }
    }
  }
}

=== FILE: server.dfy ===
/**
 The request codec and dispatch of the UDP server. A datagram's first CRLF
 line is either the list command `xxx` or fields separated by `||`; the
 decoded request is run against one of the two cache engines and answered
 with `prefix||suffix||true` or `...||false`. Sockets, workers, the packet
 queue and the buffer pool are not part of this model: a datagram arrives
 here as a string and the reply leaves as a value.
 */
module Server {
  import opened Text
  import opened Numbers
  import TrieCache
  import FlatCache

  /** The first line that asks for a dump of the live keys. */
  const ListCommand: string := "xxx"

  /** The field separator of requests and replies. */
  const Separator: string := "||"

  /** The line break after which the rest of a datagram is ignored. */
  const LineBreak: string := "\r\n"

  /** The TTL used when the TTL field does not parse or lies outside `[MinTtl, MaxTtl]`. */
  const DefaultTtl: int := 300
  const MinTtl: int := 300
  const MaxTtl: int := 900

  /** What a datagram asks for, once decoded. */
  datatype Request =
    | ListAll
      /** Three fields with a positive count: insert or refresh with the default TTL. */
    | InsertDefault(prefix: string, suffix: string, maxCount: int)
      /** Three fields with a negative count: delete the pair. */
    | DeletePair(prefix: string, suffix: string)
      /** Four fields with a non-zero count: insert or refresh with the range-checked TTL. */
    | InsertWithTtl(prefix: string, suffix: string, ttl: int, maxCount: int)
      /** A zero count, or a field count other than three or four: answered false, no change. */
    | Refused(prefix: string, suffix: string)
      /** A first line with fewer than two fields: the reply reads a field that does not exist. */
    | Unanswerable

  /**
   The decoding part of `processPDU`/`processPDU2`: the first CRLF line is
   compared with the list command, then split on `||`; the count field is
   read with the lenient parser and the TTL field with the range-checked one.
   */
  function Decode(data: string): (req: Request)
    ensures req.ListAll? <==> FirstLine(data) == ListCommand
    ensures !req.ListAll? ==>
      var items := Split(FirstLine(data), Separator);
      && (req.Unanswerable? <==> |items| < 2)
      && (!req.Unanswerable? ==> req.prefix == items[0] && req.suffix == items[1])
      && (req.InsertDefault? || req.DeletePair? ==> |items| == 3)
      && (req.InsertWithTtl? ==> |items| == 4 && req.maxCount != 0)
      && (req.InsertDefault? ==> req.maxCount > 0)
    ensures req.InsertWithTtl? ==> MinTtl <= req.ttl <= MaxTtl
    ensures !req.ListAll? ==>
      var items := Split(FirstLine(data), Separator);
      && (|items| == 3 ==>
            var max := Str2Int(items[2]);
            req == if max == 0 then Refused(items[0], items[1])
                   else if max > 0 then InsertDefault(items[0], items[1], max)
                   else DeletePair(items[0], items[1]))
      && (|items| == 4 ==> (req.Refused? <==> Str2Int(items[3]) == 0) && (req.Refused? || req.InsertWithTtl?))
      && (|items| == 4 && req.InsertWithTtl? ==>
            req.ttl == Str2IntDefaultMinMax(items[2], DefaultTtl, MinTtl, MaxTtl).0 && req.maxCount == Str2Int(items[3]))
      && (|items| >= 5 ==> req == Refused(items[0], items[1]))
  {
    var line := FirstLine(data);
    if line == ListCommand then ListAll
    else
      var items := Split(line, Separator);
      if |items| == 3 then
        var max := Str2Int(items[2]);
        if max == 0 then Refused(items[0], items[1])
        else if max > 0 then InsertDefault(items[0], items[1], max)
        else DeletePair(items[0], items[1])
      else if |items| == 4 then
        var max := Str2Int(items[3]);
        if max == 0 then Refused(items[0], items[1])
        else
          var (dur, _) := Str2IntDefaultMinMax(items[2], DefaultTtl, MinTtl, MaxTtl);
          InsertWithTtl(items[0], items[1], dur, max)
      else if |items| >= 2 then Refused(items[0], items[1])
      else Unanswerable
  }

  /** `fmt.Sprint` of a boolean. */
  function BoolText(b: bool): string
  {
    if b then "true" else "false"
  }

  /** `result`: the reply `prefix||suffix||true` or `prefix||suffix||false`. */
  function Result(prefix: string, suffix: string, flg: bool): (reply: string)
    ensures AvoidsChars(prefix, Separator) && AvoidsChars(suffix, Separator) ==>
      Split(reply, Separator) == [prefix, suffix, BoolText(flg)]
  {
    var reply := prefix + Separator + suffix + Separator + BoolText(flg);
    ReplyFields(prefix, suffix, flg);
    reply
  }

  lemma ReplyFields(prefix: string, suffix: string, flg: bool)
    ensures AvoidsChars(prefix, Separator) && AvoidsChars(suffix, Separator) ==>
      Split(prefix + Separator + suffix + Separator + BoolText(flg), Separator) == [prefix, suffix, BoolText(flg)]
  {
    if AvoidsChars(prefix, Separator) && AvoidsChars(suffix, Separator) {
      var parts := [prefix, suffix, BoolText(flg)];
      assert AvoidsChars(BoolText(flg), Separator);
      SplitJoin(parts, Separator);
      assert Join(parts, Separator) == prefix + Separator + suffix + Separator + BoolText(flg);
    }
  }

  /** What the worker sends back for one datagram. */
  datatype Reply =
      /** The engine's `GetWords` dump of the unchanged state. */
    | Listing
    | Answer(text: string)
      /** Indexing a missing field panics; the worker has no `recover`, so the process stops. */
    | Crash
      /** Nothing is sent. */
    | Silent

  /** The trie engine's part of `processPDU` for a decoded mutation. */
  function RunOnTrie(t: TrieCache.Trie, req: Request): (r: (TrieCache.Trie, bool))
    requires !req.ListAll? && !req.Unanswerable?
    ensures req.Refused? ==> r == (t, false)
    ensures TrieCache.Valid(t) ==> TrieCache.Valid(r.0)
  {
    match req
    case InsertDefault(p, s, max) => TrieCache.InsertConditionalDefaultDuration(t, p, s, max)
    case DeletePair(p, s) => TrieCache.DeleteSingle(t, p, s)
    case InsertWithTtl(p, s, ttl, max) => TrieCache.InsertConditional(t, p, s, ttl, max)
    case Refused(_, _) => (t, false)
  }

  /** The flat-map engine's part of `processPDU2` for a decoded mutation. */
  function RunOnMemCache(m: FlatCache.MemCache, req: Request): (r: (FlatCache.MemCache, bool))
    requires !req.ListAll? && !req.Unanswerable?
    ensures req.Refused? ==> r == (m, false)
    ensures FlatCache.Valid(m) ==> FlatCache.Valid(r.0)
  {
    match req
    case InsertDefault(p, s, max) => FlatCache.InsertOrRefreshDD(m, p, s, max)
    case DeletePair(p, s) => FlatCache.Delete(m, p, s)
    case InsertWithTtl(p, s, ttl, max) => FlatCache.InsertOrRefresh(m, p, s, ttl, max)
    case Refused(_, _) => (m, false)
  }

  /**
   `processPDU`: the list command is answered with the trie's listing and
   changes nothing; a line with fewer than two fields crashes; anything else
   is run on the trie and answered with its first two fields and the flag.
   */
  function ProcessPdu(t: TrieCache.Trie, data: string): (r: (TrieCache.Trie, Reply))
    ensures Decode(data).ListAll? ==> r == (t, Listing)
    ensures r.1.Crash? <==> Decode(data).Unanswerable?
    ensures r.1.Crash? ==> r.0 == t
    ensures r.1.Answer? ==> exists flag :: r.1.text == Result(Decode(data).prefix, Decode(data).suffix, flag)
    ensures Decode(data).Refused? ==> r == (t, Answer(Result(Decode(data).prefix, Decode(data).suffix, false)))
    ensures TrieCache.Valid(t) ==> TrieCache.Valid(r.0)
  {
    var req := Decode(data);
    if req.ListAll? then (t, Listing)
    else if req.Unanswerable? then (t, Crash)
    else
      var (t', flag) := RunOnTrie(t, req);
      (t', Answer(Result(req.prefix, req.suffix, flag)))
  }

  /**
   `processPDU2`, the dispatch the workers use: the same decoding and reply
   as `processPDU`, run on the flat-map engine.
   */
  function ProcessPdu2(m: FlatCache.MemCache, data: string): (r: (FlatCache.MemCache, Reply))
    ensures Decode(data).ListAll? ==> r == (m, Listing)
    ensures r.1.Crash? <==> Decode(data).Unanswerable?
    ensures r.1.Crash? ==> r.0 == m
    ensures r.1.Answer? ==> exists flag :: r.1.text == Result(Decode(data).prefix, Decode(data).suffix, flag)
    ensures Decode(data).Refused? ==> r == (m, Answer(Result(Decode(data).prefix, Decode(data).suffix, false)))
    ensures FlatCache.Valid(m) ==> FlatCache.Valid(r.0)
  {
    var req := Decode(data);
    if req.ListAll? then (m, Listing)
    else if req.Unanswerable? then (m, Crash)
    else
      var (m', flag) := RunOnMemCache(m, req);
      (m', Answer(Result(req.prefix, req.suffix, flag)))
  }

  /** A field a request can carry: no `|`, no CR, no LF. */
  predicate IsField(x: string)
  {
    AvoidsChars(x, Separator) && AvoidsChars(x, LineBreak)
  }

  /** The requests a client can write: clean fields and the counts and TTLs `Decode` produces. */
  predicate Encodable(req: Request)
  {
    match req
    case ListAll => true
    case InsertDefault(p, s, max) => IsField(p) && IsField(s) && max > 0
    case DeletePair(p, s) => IsField(p) && IsField(s)
    case InsertWithTtl(p, s, ttl, max) => IsField(p) && IsField(s) && MinTtl <= ttl <= MaxTtl && max != 0
    case Refused(p, s) => IsField(p) && IsField(s)
    case Unanswerable => true
  }

  /**
   The wire form a client writes: `prefix||suffix||count` or
   `prefix||suffix||ttl||count`, with `-1` as the delete count and `0` as a
   refused count.
   */
  function Encode(req: Request): string
  {
    match req
    case ListAll => ListCommand
    case InsertDefault(p, s, max) => Join([p, s, FormatInt(max)], Separator)
    case DeletePair(p, s) => Join([p, s, FormatInt(-1)], Separator)
    case InsertWithTtl(p, s, ttl, max) => Join([p, s, FormatInt(ttl), FormatInt(max)], Separator)
    case Refused(p, s) => Join([p, s, FormatInt(0)], Separator)
    case Unanswerable => ""
  }

  /** Decimal text holds no separator or line-break character. */
  lemma FormatIntIsField(n: int)
    ensures IsField(FormatInt(n))
  {
    var f := FormatInt(n);
    if n < 0 {
      assert f == "-" + FormatNat(-n);
      forall i | 0 <= i < |f|
        ensures f[i] == '-' || IsDigit(f[i])
      {
        if i > 0 {
          assert f[i] == FormatNat(-n)[i - 1];
        }
      }
    }
  }

  /** A joined line of clean fields holds no line-break character. */
  lemma {:induction false} JoinAvoidsLineBreak(parts: seq<string>)
    requires forall i :: 0 <= i < |parts| ==> IsField(parts[i])
    ensures AvoidsChars(Join(parts, Separator), LineBreak)
  {
    if |parts| > 1 {
      JoinAvoidsLineBreak(parts[1..]);
      var j := Join(parts[1..], Separator);
      var whole := parts[0] + Separator + j;
      forall i | 0 <= i < |whole|
        ensures whole[i] !in LineBreak
      {
        if i < |parts[0]| {
          assert whole[i] == parts[0][i];
        } else if i >= |parts[0]| + 2 {
          assert whole[i] == j[i - |parts[0]| - 2];
        }
      }
    }
  }

  /** The first line of a line without line-break characters, alone or before a CRLF, is that line. */
  lemma FirstLineOf(x: string, tail: string)
    requires AvoidsChars(x, LineBreak)
    ensures FirstLine(x) == x
    ensures FirstLine(x + LineBreak + tail) == x
  {
    AvoidsCharsNotContains(x, LineBreak);
    FindAfterHead(x, LineBreak, tail);
    assert (x + LineBreak + tail)[..|x|] == x;
  }

  /** The fields of a request line split back out of it. */
  lemma SplitFields(parts: seq<string>)
    requires |parts| >= 1
    requires forall i :: 0 <= i < |parts| ==> IsField(parts[i])
    ensures Split(Join(parts, Separator), Separator) == parts
    ensures AvoidsChars(Join(parts, Separator), LineBreak)
  {
    SplitJoin(parts, Separator);
    JoinAvoidsLineBreak(parts);
  }

  /**
   Decoding undoes encoding: every request a client can write decodes to
   itself, whether or not a CRLF and further text follow it.
   */
  lemma DecodeEncode(req: Request, tail: string)
    requires Encodable(req)
    ensures Decode(Encode(req)) == req
    ensures Decode(Encode(req) + LineBreak + tail) == req
  {
    match req {
      case ListAll =>
        FirstLineOf(Encode(req), tail);
      case Unanswerable =>
        FirstLineOf(Encode(req), tail);
        assert Split("", Separator) == [""];
      case InsertDefault(p, s, max) =>
        DecodeEncodeCount(req, tail, max);
      case DeletePair(p, s) =>
        DecodeEncodeCount(req, tail, -1);
      case Refused(p, s) =>
        DecodeEncodeCount(req, tail, 0);
      case InsertWithTtl(p, s, ttl, max) =>
        DecodeEncodeTtl(req, tail);
    }
  }

  /** `DecodeEncode` for the three-field requests, whose count field is `n`. */
  lemma DecodeEncodeCount(req: Request, tail: string, n: int)
    requires Encodable(req) && (req.InsertDefault? || req.DeletePair? || req.Refused?)
    requires n == (if req.InsertDefault? then req.maxCount else if req.DeletePair? then -1 else 0)
    ensures Decode(Encode(req)) == req
    ensures Decode(Encode(req) + LineBreak + tail) == req
  {
    FormatIntIsField(n);
    EncodedLine(req, [req.prefix, req.suffix, FormatInt(n)], tail);
    ParseFormatted(n);
  }

  /** `DecodeEncode` for the four-field request. */
  lemma DecodeEncodeTtl(req: Request, tail: string)
    requires Encodable(req) && req.InsertWithTtl?
    ensures Decode(Encode(req)) == req
    ensures Decode(Encode(req) + LineBreak + tail) == req
  {
    FormatIntIsField(req.ttl);
    FormatIntIsField(req.maxCount);
    EncodedLine(req, [req.prefix, req.suffix, FormatInt(req.ttl), FormatInt(req.maxCount)], tail);
    ParseFormatted(req.ttl);
    ParseFormatted(req.maxCount);
  }

  /** An encoded request line is its own first line and splits into its fields. */
  lemma EncodedLine(req: Request, parts: seq<string>, tail: string)
    requires Encode(req) == Join(parts, Separator) && |parts| >= 3
    requires forall i :: 0 <= i < |parts| ==> IsField(parts[i])
    ensures FirstLine(Encode(req)) == Encode(req) != ListCommand
    ensures FirstLine(Encode(req) + LineBreak + tail) == Encode(req)
    ensures Split(Encode(req), Separator) == parts
  {
    SplitFields(parts);
    FirstLineOf(Encode(req), tail);
  }

  /** A reply splits back into the prefix, the suffix and the flag, which is how a client correlates it. */
  lemma ReplyCorrelates(prefix: string, suffix: string, flg: bool)
    requires IsField(prefix) && IsField(suffix)
    ensures var items := Split(Result(prefix, suffix, flg), Separator);
      |items| == 3 && items[0] + Separator + items[1] == prefix + Separator + suffix && items[2] == BoolText(flg)
  {
  }

  /** The list command leaves both engines untouched, alone or followed by a CRLF and more text. */
  lemma ListCommandIsReadOnly(t: TrieCache.Trie, m: FlatCache.MemCache, tail: string)
    ensures ProcessPdu(t, ListCommand) == (t, Listing)
    ensures ProcessPdu(t, ListCommand + LineBreak + tail) == (t, Listing)
    ensures ProcessPdu2(m, ListCommand) == (m, Listing)
    ensures ProcessPdu2(m, ListCommand + LineBreak + tail) == (m, Listing)
  {
    DecodeEncode(ListAll, tail);
  }

  /**
   A three-field line on the flat-map engine: a zero count answers false and
   changes nothing; a positive count refreshes a live pair with the default
   TTL or admits a new one while the group is below the count; a negative
   count deletes the pair and answers whether it was live.
   */
  lemma ThreeFieldsOnMemCache(m: FlatCache.MemCache, data: string)
    requires FirstLine(data) != ListCommand
    requires |Split(FirstLine(data), Separator)| == 3
    ensures var items := Split(FirstLine(data), Separator);
      var p, s, max := items[0], items[1], Str2Int(items[2]);
      var r := ProcessPdu2(m, data);
      && (max == 0 ==> r == (m, Answer(Result(p, s, false))))
      && (max > 0 && p != [] && s != [] && FlatCache.Has(m, p, s) ==>
            r.1 == Answer(Result(p, s, true)) && r.0.datamap[p][s] == m.duration)
      && (max > 0 && p != [] && s != [] && !FlatCache.Has(m, p, s) ==>
            r.1 == Answer(Result(p, s, FlatCache.GroupSize(m, p) < max)))
      && (max < 0 ==> r.1 == Answer(Result(p, s, p != [] && s != [] && FlatCache.Has(m, p, s))))
      && (max < 0 && p != [] && s != [] ==> !FlatCache.Has(r.0, p, s))
      && (max > 0 && p != [] && s != [] && !FlatCache.Has(m, p, s) && FlatCache.GroupSize(m, p) < max ==>
            FlatCache.Has(r.0, p, s) && r.0.datamap[p][s] == m.duration)
      && (max != 0 ==> forall p', s' :: (p', s') != (p, s) ==> (FlatCache.Has(r.0, p', s') <==> FlatCache.Has(m, p', s')))
  {
  }

  /**
   A three-field line on the trie engine: a zero count answers false and
   changes nothing; a positive count answers whether the admission check
   passed; a negative count removes the key and answers true whenever the
   key is non-empty, whether or not it was live.
   */
  lemma ThreeFieldsOnTrie(t: TrieCache.Trie, data: string)
    requires TrieCache.Valid(t)
    requires FirstLine(data) != ListCommand
    requires |Split(FirstLine(data), Separator)| == 3
    ensures var items := Split(FirstLine(data), Separator);
      var p, s, max := items[0], items[1], Str2Int(items[2]);
      var r := ProcessPdu(t, data);
      && (max == 0 ==> r == (t, Answer(Result(p, s, false))))
      && (max > 0 ==> r.1 == Answer(Result(p, s, p != [] && s != [] && |TrieCache.KeysWithPrefix(t, p)| < max)))
      && (max > 0 && p != [] && s != [] && |TrieCache.KeysWithPrefix(t, p)| < max ==>
            p + s in r.0.timers && r.0.timers[p + s].ttl == t.duration)
      && (max < 0 ==> r.1 == Answer(Result(p, s, p + s != [])) && r.0.timers == t.timers - {p + s})
      && (max > 0 && !(p != [] && s != [] && |TrieCache.KeysWithPrefix(t, p)| < max) ==> r.0 == t)
      && (max > 0 ==> forall k :: k in t.timers && k != p + s ==> k in r.0.timers && r.0.timers[k] == t.timers[k])
  {
  }

  /**
   Every three-field line on both engines: a zero count answers false and
   changes nothing; a positive count runs the engine's insert with its
   default duration, and a negative count its single-pair delete, and the
   reply carries the engine's flag.
   */
  lemma ThreeFields(t: TrieCache.Trie, m: FlatCache.MemCache, data: string)
    requires FirstLine(data) != ListCommand
    requires |Split(FirstLine(data), Separator)| == 3
    ensures var items := Split(FirstLine(data), Separator);
      var p, s, max := items[0], items[1], Str2Int(items[2]);
      && (max == 0 ==>
            ProcessPdu(t, data) == (t, Answer(Result(p, s, false)))
            && ProcessPdu2(m, data) == (m, Answer(Result(p, s, false))))
      && (max > 0 ==>
            var tr := TrieCache.InsertConditionalDefaultDuration(t, p, s, max);
            var mr := FlatCache.InsertOrRefreshDD(m, p, s, max);
            ProcessPdu(t, data) == (tr.0, Answer(Result(p, s, tr.1)))
            && ProcessPdu2(m, data) == (mr.0, Answer(Result(p, s, mr.1))))
      && (max < 0 ==>
            var tr := TrieCache.DeleteSingle(t, p, s);
            var mr := FlatCache.Delete(m, p, s);
            ProcessPdu(t, data) == (tr.0, Answer(Result(p, s, tr.1)))
            && ProcessPdu2(m, data) == (mr.0, Answer(Result(p, s, mr.1))))
  {
  }

  /**
   A four-field line never removes anything from either engine, even with a
   negative count; with a non-zero count a live pair is refreshed with the
   range-checked TTL and answered true.
   */
  lemma FourFieldsNeverDelete(t: TrieCache.Trie, m: FlatCache.MemCache, data: string)
    requires FirstLine(data) != ListCommand
    requires |Split(FirstLine(data), Separator)| == 4
    ensures t.timers.Keys <= ProcessPdu(t, data).0.timers.Keys
    ensures forall p, s :: FlatCache.Has(m, p, s) ==> FlatCache.Has(ProcessPdu2(m, data).0, p, s)
    ensures var items := Split(FirstLine(data), Separator);
      var p, s := items[0], items[1];
      var ttl := Str2IntDefaultMinMax(items[2], DefaultTtl, MinTtl, MaxTtl).0;
      var r := ProcessPdu2(m, data);
      Str2Int(items[3]) != 0 && p != [] && s != [] && FlatCache.Has(m, p, s) ==>
        r.1 == Answer(Result(p, s, true)) && r.0.datamap[p][s] == ttl
  {
  }

  /**
   Every four-field line on both engines: a zero count answers false and
   changes nothing; any other count, negative included, runs the engine's
   insert with the range-checked TTL and answers its flag.
   */
  lemma FourFields(t: TrieCache.Trie, m: FlatCache.MemCache, data: string)
    requires FirstLine(data) != ListCommand
    requires |Split(FirstLine(data), Separator)| == 4
    ensures var items := Split(FirstLine(data), Separator);
      var p, s, max := items[0], items[1], Str2Int(items[3]);
      var ttl := Str2IntDefaultMinMax(items[2], DefaultTtl, MinTtl, MaxTtl).0;
      && (max == 0 ==>
            ProcessPdu(t, data) == (t, Answer(Result(p, s, false)))
            && ProcessPdu2(m, data) == (m, Answer(Result(p, s, false))))
      && (max != 0 ==>
            var tr := TrieCache.InsertConditional(t, p, s, ttl, max);
            var mr := FlatCache.InsertOrRefresh(m, p, s, ttl, max);
            ProcessPdu(t, data) == (tr.0, Answer(Result(p, s, tr.1)))
            && ProcessPdu2(m, data) == (mr.0, Answer(Result(p, s, mr.1))))
  {
  }

  // The scenario lemmas below take their datagrams as parameters fixed by a
  // `requires` rather than writing the literals inline: a literal in a
  // contract lets the solver unfold `Split` and `Find` on it in every proof
  // that sees the contract, which runs out of resource.

  /** The two lines of the protocol scenario decode to an insert and a delete. */
  lemma ScenarioLines(ins: string, del: string)
    requires ins == "abc||def||5" && del == "abc||def||-1"
    ensures Decode(ins) == InsertDefault("abc", "def", 5)
    ensures Decode(del) == DeletePair("abc", "def")
  {
    assert IsField("abc") && IsField("def");
    var i := InsertDefault("abc", "def", 5);
    var d := DeletePair("abc", "def");
    assert FormatInt(5) == "5";
    assert FormatInt(-1) == "-1";
    assert Encode(i) == ins;
    assert Encode(d) == del;
    DecodeEncode(i, []);
    DecodeEncode(d, []);
  }

  /** The success reply of both scenarios. */
  lemma ScenarioReply()
    ensures Result("abc", "def", true) == "abc||def||true"
  {
  }

  /**
   The protocol scenario on the flat-map engine: `abc||def||5` on an empty
   cache answers `abc||def||true` and makes the pair live; `abc||def||-1`
   then answers `abc||def||true` and removes it.
   */
  lemma ProtocolScenario(dd: int, ins: string, del: string)
    requires ins == "abc||def||5" && del == "abc||def||-1"
    ensures var m0 := FlatCache.NewMemCache(dd);
      var (m1, r1) := ProcessPdu2(m0, ins);
      var (m2, r2) := ProcessPdu2(m1, del);
      && r1 == Answer("abc||def||true") && FlatCache.Has(m1, "abc", "def")
      && r2 == Answer("abc||def||true") && !FlatCache.Has(m2, "abc", "def")
  {
    ScenarioLines(ins, del);
    ScenarioReply();
  }

  /** The protocol scenario on the trie engine, with the same replies and the key `abc` + `def`. */
  lemma ProtocolScenarioOnTrie(dd: int, ins: string, del: string)
    requires ins == "abc||def||5" && del == "abc||def||-1"
    ensures ProcessPdu(TrieCache.NewTrie(dd), ins).1 == Answer("abc||def||true")
    ensures "abc" + "def" in ProcessPdu(TrieCache.NewTrie(dd), ins).0.timers
    ensures ProcessPdu(ProcessPdu(TrieCache.NewTrie(dd), ins).0, del).1 == Answer("abc||def||true")
    ensures "abc" + "def" !in ProcessPdu(ProcessPdu(TrieCache.NewTrie(dd), ins).0, del).0.timers
  {
    ScenarioLines(ins, del);
    ScenarioReply();
    var t0 := TrieCache.NewTrie(dd);
    assert TrieCache.KeysWithPrefix(t0, "abc") == {};
    AdmittedOnTrie(t0, ins, "abc", "def", 5);
    DeletedOnTrie(ProcessPdu(t0, ins).0, del, "abc", "def");
  }

  /** An insert request admitted by the trie's count check is answered true and makes the key live. */
  lemma AdmittedOnTrie(t: TrieCache.Trie, data: string, p: string, s: string, max: int)
    requires TrieCache.Valid(t) && Decode(data) == InsertDefault(p, s, max)
    requires p != [] && s != [] && |TrieCache.KeysWithPrefix(t, p)| < max
    ensures var r := ProcessPdu(t, data);
      r.1 == Answer(Result(p, s, true)) && p + s in r.0.timers && TrieCache.Valid(r.0)
  {
  }

  /** A delete request on the trie is answered true for a non-empty key and leaves that key dead. */
  lemma DeletedOnTrie(t: TrieCache.Trie, data: string, p: string, s: string)
    requires TrieCache.Valid(t) && Decode(data) == DeletePair(p, s) && p + s != []
    ensures var r := ProcessPdu(t, data);
      r.1 == Answer(Result(p, s, true)) && p + s !in r.0.timers
  {
  }

  /** A line joined from clean fields is its own first line and splits back into them. */
  lemma FieldsLine(line: string, parts: seq<string>)
    requires |parts| >= 1 && line == Join(parts, Separator)
    requires forall i :: 0 <= i < |parts| ==> IsField(parts[i])
    ensures Split(line, Separator) == parts && FirstLine(line) == line
  {
    SplitFields(parts);
    FirstLineOf(line, []);
  }

  // As with the protocol scenario, the clamping line is a parameter fixed by
  // a `requires`, so the literal is unfolded only inside these proofs.

  /** The clamping line: `abc||def||10||5` decodes to an insert with the default TTL. */
  lemma ClampingLine(line: string)
    requires line == "abc||def||10||5"
    ensures Decode(line) == InsertWithTtl("abc", "def", DefaultTtl, 5)
  {
    ClampingFields(line);
    OutOfRangeTtlIsDefault();
    assert FormatInt(5) == "5";
    ParseFormatted(5);
  }

  /** The clamping line is its own first line and holds four fields. */
  lemma ClampingFields(line: string)
    requires line == "abc||def||10||5"
    ensures FirstLine(line) == line && Split(line, Separator) == ["abc", "def", "10", "5"]
  {
    var parts := ["abc", "def", "10", "5"];
    assert IsField("abc") && IsField("def") && IsField("10") && IsField("5");
    FieldsLine(line, parts);
  }

  /**
   The clamping scenario: `abc||def||10||5` is not refused; the TTL 10 lies
   below the range, so the pair is armed with the default 300.
   */
  lemma ClampingScenario(m: FlatCache.MemCache, line: string)
    requires line == "abc||def||10||5"
    ensures !FlatCache.Has(m, "abc", "def") && FlatCache.GroupSize(m, "abc") < 5 ==>
      var r := ProcessPdu2(m, line);
      r.1 == Answer("abc||def||true") && FlatCache.Has(r.0, "abc", "def") && r.0.datamap["abc"]["def"] == DefaultTtl
  {
    ClampingLine(line);
    ScenarioReply();
    if !FlatCache.Has(m, "abc", "def") && FlatCache.GroupSize(m, "abc") < 5 {
      AdmittedWithTtl(m, line, "abc", "def", DefaultTtl, 5);
    }
  }

  /** A TTL request for an absent pair under a group below its count is admitted and armed with that TTL. */
  lemma AdmittedWithTtl(m: FlatCache.MemCache, data: string, p: string, s: string, ttl: int, max: int)
    requires Decode(data) == InsertWithTtl(p, s, ttl, max)
    requires p != [] && s != [] && !FlatCache.Has(m, p, s) && FlatCache.GroupSize(m, p) < max
    ensures var r := ProcessPdu2(m, data);
      r.1 == Answer(Result(p, s, true)) && FlatCache.Has(r.0, p, s) && r.0.datamap[p][s] == ttl
  {
  }

  /** As written, a non-list line without a separator crashes either dispatch. */
  lemma SingleFieldLineCrashes(t: TrieCache.Trie, m: FlatCache.MemCache)
    ensures ProcessPdu(t, "hello").1 == Crash
    ensures ProcessPdu2(m, "hello").1 == Crash
  {
    assert IsField("hello");
    SplitFields(["hello"]);
    FirstLineOf("hello", []);
  }

  /**
   `processPDU2` with the malformed-line branch dropping the datagram instead
   of crashing: a line with fewer than two fields changes nothing and sends
   nothing; every other datagram is handled as before.
   */
  function ProcessPdu2Guarded(m: FlatCache.MemCache, data: string): (r: (FlatCache.MemCache, Reply))
    ensures !r.1.Crash?
    ensures Decode(data).Unanswerable? <==> r == (m, Silent)
    ensures !ProcessPdu2(m, data).1.Crash? ==> r == ProcessPdu2(m, data)
    ensures FlatCache.Valid(m) ==> FlatCache.Valid(r.0)
  {
    if Decode(data).Unanswerable? then (m, Silent) else ProcessPdu2(m, data)
  }
}

=== FILE: text.dfy ===
/**
 Go's string primitives that the request codec relies on: `strings.Index`,
 `strings.Split` and the inverse `strings.Join`. Strings are sequences of
 characters, one character per byte.
 */
module Text {
  import opened Wrappers

  /** True iff `sep` occurs in `s` starting at index `i`. */
  predicate OccursAt(s: string, sep: string, i: int)
  {
    0 <= i && i + |sep| <= |s| && s[i..i + |sep|] == sep
  }

  /** True iff `sep` occurs somewhere in `s`. */
  predicate Contains(s: string, sep: string)
  {
    exists i | 0 <= i <= |s| :: OccursAt(s, sep, i)
  }

  /** True iff no character of `s` is a character of `sep`. */
  predicate AvoidsChars(s: string, sep: string)
  {
    forall i :: 0 <= i < |s| ==> s[i] !in sep
  }

  /** The first occurrence of `sep` in `s` at or after index `k`. */
  function FindFrom(s: string, sep: string, k: nat): (r: Option<nat>)
    requires |sep| > 0
    ensures r.Some? ==> k <= r.value && OccursAt(s, sep, r.value)
    ensures r.Some? ==> forall j :: k <= j < r.value ==> !OccursAt(s, sep, j)
    ensures r.None? ==> forall j :: k <= j ==> !OccursAt(s, sep, j)
    decreases |s| - k
  {
    if k + |sep| > |s| then None
    else if s[k..k + |sep|] == sep then Some(k)
    else FindFrom(s, sep, k + 1)
  }

  /** `strings.Index(s, sep)` for a non-empty separator. */
  function Find(s: string, sep: string): (r: Option<nat>)
    requires |sep| > 0
    ensures r.Some? ==> OccursAt(s, sep, r.value) && forall j :: 0 <= j < r.value ==> !OccursAt(s, sep, j)
    ensures r.None? <==> !Contains(s, sep)
  {
    FindFrom(s, sep, 0)
  }

  /** `strings.Join(parts, sep)`. */
  function Join(parts: seq<string>, sep: string): string
  {
    if |parts| == 0 then ""
    else if |parts| == 1 then parts[0]
    else parts[0] + sep + Join(parts[1..], sep)
  }

  /** An occurrence inside a prefix of `s` is an occurrence in `s`. */
  lemma OccursInPrefix(s: string, sep: string, i: nat, j: int)
    requires i <= |s|
    requires OccursAt(s[..i], sep, j)
    ensures OccursAt(s, sep, j) && j + |sep| <= i
  {
    assert s[..i][j..j + |sep|] == s[j..j + |sep|];
  }

  /**
   `strings.Split(s, sep)` for a non-empty separator: the pieces between the
   non-overlapping occurrences of `sep`, found left to right.
   */
  function Split(s: string, sep: string): (parts: seq<string>)
    requires |sep| > 0
    ensures |parts| >= 1
    ensures Join(parts, sep) == s
    ensures forall i :: 0 <= i < |parts| ==> !Contains(parts[i], sep)
    decreases |s|
  {
    match Find(s, sep)
    case None => [s]
    case Some(i) =>
      var head := s[..i];
      var rest := Split(s[i + |sep|..], sep);
      assert !Contains(head, sep) by {
        forall j | OccursAt(head, sep, j)
          ensures false
        {
          OccursInPrefix(s, sep, i, j);
        }
      }
      assert s == head + sep + s[i + |sep|..];
      [head] + rest
  }

  /**
   `Split` cuts at the leftmost occurrences: every part but the last, with the
   separator after it, holds its first occurrence of the separator exactly
   there. With the contract of `Split` this fixes the parts uniquely, also for
   a separator that overlaps itself, such as `||` in `a|||b`.
   */
  lemma {:induction false} SplitIsLeftmost(s: string, sep: string)
    requires |sep| > 0
    ensures |Split(s, sep)| == 1 <==> Find(s, sep).None?
    ensures forall k :: 0 <= k < |Split(s, sep)| - 1 ==>
      Find(Split(s, sep)[k] + sep, sep) == Some(|Split(s, sep)[k]|)
    decreases |s|
  {
    var parts := Split(s, sep);
    match Find(s, sep)
    case None =>
    case Some(i) =>
      var rest := s[i + |sep|..];
      assert parts == [s[..i]] + Split(rest, sep);
      SplitIsLeftmost(rest, sep);
      FirstOccurrenceOfHead(s, sep, i);
      forall k | 0 <= k < |parts| - 1
        ensures Find(parts[k] + sep, sep) == Some(|parts[k]|)
      {
        if k > 0 {
          assert parts[k] == Split(rest, sep)[k - 1];
        }
      }
  }

  /** With the self-overlapping separator `||`, `a|||b` splits as Go splits it: the cut is at the first `||`. */
  lemma OverlappingSeparator()
    ensures Split("a|||b", "||") == ["a", "|b"]
  {
    var s, sep := "a|||b", "||";
    assert s[1..3] == sep;
    assert s[0..2][0] == 'a';
    FindIsFirst(s, sep, 1);
    assert s[..1] == "a" && s[3..] == "|b";
    assert "|b"[0..2][1] == 'b';
    assert !OccursAt("|b", sep, 0);
    assert Find("|b", sep) == None;
  }

  /** When `sep` first occurs in `s` at `i`, it also first occurs at `i` in `s[..i] + sep`. */
  lemma FirstOccurrenceOfHead(s: string, sep: string, i: nat)
    requires |sep| > 0 && Find(s, sep) == Some(i)
    ensures Find(s[..i] + sep, sep) == Some(i)
  {
    var h := s[..i] + sep;
    assert h == s[..i + |sep|];
    forall j | 0 <= j <= i
      ensures OccursAt(h, sep, j) <==> OccursAt(s, sep, j)
    {
      assert j + |sep| <= |h|;
      assert s[..i + |sep|][j..j + |sep|] == s[j..j + |sep|];
    }
    assert OccursAt(h, sep, i);
    FindIsFirst(h, sep, i);
  }

  /** An occurrence with none before it is what `Find` returns. */
  lemma FindIsFirst(s: string, sep: string, i: nat)
    requires |sep| > 0 && OccursAt(s, sep, i)
    requires forall j :: 0 <= j < i ==> !OccursAt(s, sep, j)
    ensures Find(s, sep) == Some(i)
  {
    assert Contains(s, sep);
  }

  /** The part of `data` before its first CRLF, as `strings.Split(data, "\r\n")[0]`. */
  function FirstLine(data: string): string
  {
    Split(data, "\r\n")[0]
  }

  /** In `p + sep + t`, the first occurrence of `sep` is the one right after `p`. */
  lemma FindAfterHead(p: string, sep: string, t: string)
    requires |sep| > 0
    requires AvoidsChars(p, sep)
    ensures Find(p + sep + t, sep) == Some(|p|)
  {
    var s := p + sep + t;
    assert OccursAt(s, sep, |p|) by {
      assert s[|p|..|p| + |sep|] == sep;
    }
    forall j | 0 <= j < |p|
      ensures !OccursAt(s, sep, j)
    {
      assert s[j] == p[j];
    }
    assert Find(s, sep) == Some(|p|);
  }

  /** A string with no character of `sep` holds no occurrence of it. */
  lemma AvoidsCharsNotContains(p: string, sep: string)
    requires |sep| > 0
    requires AvoidsChars(p, sep)
    ensures !Contains(p, sep)
  {
    forall j | 0 <= j && j + |sep| <= |p|
      ensures !OccursAt(p, sep, j)
    {
      assert p[j..j + |sep|][0] == p[j];
    }
  }

  /**
   Splitting undoes joining whenever no part uses a character of the
   separator: the decoder recovers the exact fields an encoder joined.
   */
  lemma {:induction false} SplitJoin(parts: seq<string>, sep: string)
    requires |sep| > 0 && |parts| >= 1
    requires forall i :: 0 <= i < |parts| ==> AvoidsChars(parts[i], sep)
    ensures Split(Join(parts, sep), sep) == parts
    decreases |parts|
  {
    if |parts| == 1 {
      AvoidsCharsNotContains(parts[0], sep);
    } else {
      SplitAfterHead(parts[0], sep, Join(parts[1..], sep));
      SplitJoin(parts[1..], sep);
      assert parts == [parts[0]] + parts[1..];
    }
  }

  /** A head free of separator characters splits off as the first piece. */
  lemma SplitAfterHead(p: string, sep: string, t: string)
    requires |sep| > 0
    requires AvoidsChars(p, sep)
    ensures Split(p + sep + t, sep) == [p] + Split(t, sep)
  {
    var s := p + sep + t;
    FindAfterHead(p, sep, t);
    assert s[..|p|] == p;
    assert s[|p| + |sep|..] == t;
  }

  /** Every line followed by `eol`, as a `strings.Builder` writing `line + eol` per line. */
  function EachLine(lines: seq<string>, eol: string): string
  {
    if |lines| == 0 then "" else lines[0] + eol + EachLine(lines[1..], eol)
  }

  /** Terminating every line is joining the lines with one empty line after them. */
  lemma {:induction false} EachLineIsJoin(lines: seq<string>, eol: string)
    ensures EachLine(lines, eol) == Join(lines + [""], eol)
  {
    if |lines| > 0 {
      EachLineIsJoin(lines[1..], eol);
      assert (lines + [""])[1..] == lines[1..] + [""];
    }
  }

  /**
   A listing written line by line splits back into exactly its lines and one
   empty tail, when no line uses a character of the terminator.
   */
  lemma SplitEachLine(lines: seq<string>, eol: string)
    requires |eol| > 0
    requires forall i :: 0 <= i < |lines| ==> AvoidsChars(lines[i], eol)
    ensures Split(EachLine(lines, eol), eol) == lines + [""]
  {
    EachLineIsJoin(lines, eol);
    SplitJoin(lines + [""], eol);
  }

  /** `order` visits every element of `s` exactly once, as a Go map iteration does. */
  ghost predicate IsEnumeration(order: seq<string>, s: set<string>)
  {
    && (forall i, j :: 0 <= i < j < |order| ==> order[i] != order[j])
    && (forall x :: x in order <==> x in s)
  }

  /** The lines of a text in which every line ends with `eol`: the split without its empty tail. */
  function Lines(out: string, eol: string): seq<string>
    requires |eol| > 0
  {
    var parts := Split(out, eol);
    parts[..|parts| - 1]
  }
}

=== FILE: trie.dfy ===
/**
 The trie cache engine. Full keys `prefix + suffix` are stored as paths in a
 character trie; a side index maps each live key to its timer entry, whose
 generation counts the refreshes since the key was inserted. Each public
 operation is one atomic step (the engine holds one lock per call), so every
 operation is a function from the old engine value to the new one. Timers are
 not run: a timer firing is the explicit event `OnTimer`.
 */
module TrieCache {
  import opened Wrappers
  import opened Text
  import opened TrieNodes
  import opened Runs

  /** `timerEntry`: the generation of a live key and the duration its timer was last armed with. */
  datatype Timer = Timer(generation: nat, ttl: Duration)

  /** `Trie`: the root node, the default duration and the timer index. */
  datatype Trie = Trie(root: Node, duration: Duration, timers: map<string, Timer>)

  /**
   The engine invariant: the tree is pruned, the empty word is never stored,
   and the keys of the timer index are exactly the words of the tree.
   */
  ghost predicate Valid(t: Trie)
  {
    && Pruned(t.root)
    && !t.root.isEnd
    && (forall w :: w in t.timers <==> HasWord(t.root, w))
  }

  /** The key set of the timer index is the word set of the tree. */
  lemma KeysAreWords(t: Trie)
    requires Valid(t)
    ensures t.timers.Keys == Words(t.root)
    ensures [] !in t.timers
  {
    forall w
      ensures w in t.timers <==> w in Words(t.root)
    {
      WordsIffHasWord(t.root, w);
    }
  }

  /** The keys of the timer index that begin with `p`. */
  function KeysWithPrefix(t: Trie, p: string): set<string>
  {
    set k | k in t.timers && p <= k
  }

  /** `NewTrie`: an empty root, no timers, and the engine's default duration. */
  function NewTrie(dd: Duration): (t: Trie)
    ensures Valid(t)
    ensures t.timers == map[] && t.duration == dd
    ensures forall w :: !HasWord(t.root, w)
  {
    Trie(Empty, dd, map[])
  }

  /**
   `insertWord`: a present key keeps its place in the tree and gets its
   generation bumped and its timer re-armed; an absent key gets a path,
   a terminal mark and a timer entry of generation 0. It always succeeds.
   */
  function InsertWord(t: Trie, word: string, d: Duration): (r: (Trie, bool))
    ensures r.1
    ensures r.0.duration == t.duration
    ensures r.0.timers.Keys == t.timers.Keys + {word}
    ensures word in r.0.timers && r.0.timers[word].ttl == d
    ensures forall k :: k in t.timers && k != word ==> r.0.timers[k] == t.timers[k]
    ensures word in t.timers ==> r.0.root == t.root
    ensures word in t.timers ==> r.0.timers[word].generation == t.timers[word].generation + 1
    ensures word !in t.timers ==> r.0.timers[word].generation == 0
    ensures word !in t.timers ==> forall x :: HasWord(r.0.root, x) <==> HasWord(t.root, x) || x == word
    ensures Valid(t) && word != [] ==> Valid(r.0)
  {
    if word in t.timers then
      var e := t.timers[word];
      assert Valid(t) ==> HasWord(t.root, word);
      (t.(timers := t.timers[word := Timer(e.generation + 1, d)]), true)
    else
      var generation := 0;
      NewWordValid(t, word, Timer(generation, d));
      (Trie(InsertPath(t.root, word), t.duration, t.timers[word := Timer(generation, d)]), true)
  }

  /** A new non-empty word with a fresh timer keeps the trie valid. */
  lemma NewWordValid(t: Trie, word: string, e: Timer)
    requires word !in t.timers
    ensures Valid(t) && word != [] ==> Valid(Trie(InsertPath(t.root, word), t.duration, t.timers[word := e]))
  {
    if Valid(t) && word != [] {
      var root := InsertPath(t.root, word);
      assert HasWord(root, []) ==> HasWord(t.root, []);
    }
  }

  /** `Insert`: refuses the empty word, otherwise inserts or refreshes it. */
  function Insert(t: Trie, word: string, d: Duration): (r: (Trie, bool))
    ensures r.1 <==> word != []
    ensures !r.1 ==> r.0 == t
    ensures r.1 ==> word in r.0.timers && r.0.timers.Keys == t.timers.Keys + {word}
    ensures r.1 ==> r.0.timers[word].ttl == d
    ensures forall k :: k in t.timers && k != word ==> k in r.0.timers && r.0.timers[k] == t.timers[k]
    ensures r.1 && word in t.timers ==> r.0.root == t.root && r.0.timers[word].generation == t.timers[word].generation + 1
    ensures r.1 && word !in t.timers ==> r.0.timers[word].generation == 0
    ensures r.0.duration == t.duration
    ensures Valid(t) ==> Valid(r.0)
  {
    if word == [] then (t, false) else InsertWord(t, word, d)
  }

  /**
   `Search`: follows `word` from the root. As a prefix query it succeeds when
   the path exists; otherwise the last node must end a word.
   */
  function Search(t: Trie, word: string, isPrefix: bool): (b: bool)
    ensures Valid(t) && !isPrefix ==> (b <==> word != [] && word in t.timers)
    ensures Valid(t) && isPrefix ==> (b <==> word != [] && exists k :: k in t.timers && word <= k)
  {
    if word == [] then false
    else
      match Walk(t.root, word)
      case None => false
      case Some(m) =>
        PrefixSearchWitness(t, word, m);
        assert HasWord(m, []) <==> HasWord(t.root, word + []) by { assert word + [] == word; }
        isPrefix || m.isEnd
  }

  /** A path that exists in a valid trie leads to at least one live key. */
  lemma PrefixSearchWitness(t: Trie, word: string, m: Node)
    requires word != [] && Walk(t.root, word) == Some(m)
    ensures Valid(t) ==> exists k :: k in t.timers && word <= k
  {
    if Valid(t) {
      var v := LiveHasWord(m);
      assert HasWord(t.root, word + v);
      assert word <= word + v;
    }
  }

  /** The words below `m`, each with `prefix` put in front, as `collectWords` gathers them. */
  function Collect(m: Node, prefix: string): set<string>
  {
    set w | w in Words(m) :: prefix + w
  }

  /**
   `getWordsWithPrefix`: every stored word that begins with `p`, taken from
   the tree. Words stored under a longer prefix that begins with `p` count too.
   */
  function WordsWithPrefix(t: Trie, p: string): (ws: set<string>)
    ensures Valid(t) ==> ws == KeysWithPrefix(t, p)
    ensures Walk(t.root, p).None? ==> ws == {}
  {
    match Walk(t.root, p)
    case None =>
      WordsWithPrefixAbsent(t, p);
      {}
    case Some(m) =>
      WordsWithPrefixPresent(t, p, m);
      Collect(m, p)
  }

  lemma WordsWithPrefixAbsent(t: Trie, p: string)
    requires Walk(t.root, p).None?
    ensures Valid(t) ==> KeysWithPrefix(t, p) == {}
  {
  }

  lemma WordsWithPrefixPresent(t: Trie, p: string, m: Node)
    requires Walk(t.root, p) == Some(m)
    ensures Valid(t) ==> Collect(m, p) == KeysWithPrefix(t, p)
  {
    if Valid(t) {
      forall k | k in Collect(m, p)
        ensures k in KeysWithPrefix(t, p)
      {
        var w :| w in Words(m) && k == p + w;
        WordsIffHasWord(m, w);
      }
      forall k | k in KeysWithPrefix(t, p)
        ensures k in Collect(m, p)
      {
        KeyIsCollected(t, p, m, k);
      }
    }
  }

  /** A key under `p` is `p` followed by a word of the node `p` leads to. */
  lemma KeyIsCollected(t: Trie, p: string, m: Node, k: string)
    requires Valid(t) && Walk(t.root, p) == Some(m) && k in KeysWithPrefix(t, p)
    ensures k in Collect(m, p)
  {
    var w := k[|p|..];
    assert k == p + w;
    assert HasWord(t.root, p + w);
    assert HasWord(m, w);
    WordsIffHasWord(m, w);
    assert w in Words(m);
  }

  /** `GetWordsWithPrefix`: the empty prefix gives nothing; otherwise as `getWordsWithPrefix`. */
  function GetWordsWithPrefix(t: Trie, p: string): (ws: set<string>)
    ensures p == [] ==> ws == {}
    ensures Valid(t) && p != [] ==> ws == KeysWithPrefix(t, p)
  {
    if p == [] then {} else WordsWithPrefix(t, p)
  }

  /**
   `InsertConditional`: refuses an empty prefix or suffix; then refuses when
   the number of stored words beginning with `prefix` is at least `maxCount`,
   before looking at whether `prefix + suffix` is already stored; otherwise
   inserts or refreshes `prefix + suffix`. A refused call changes nothing.
   */
  function InsertConditional(t: Trie, prefix: string, suffix: string, d: Duration, maxCount: int): (r: (Trie, bool))
    ensures Valid(t) ==>
      (r.1 <==> prefix != [] && suffix != [] && |KeysWithPrefix(t, prefix)| < maxCount)
    ensures !r.1 ==> r.0 == t
    ensures r.1 ==> prefix + suffix in r.0.timers && r.0.timers.Keys == t.timers.Keys + {prefix + suffix}
    ensures r.1 && prefix + suffix in t.timers ==>
      r.0.root == t.root && r.0.timers[prefix + suffix].generation == t.timers[prefix + suffix].generation + 1
    ensures r.1 && prefix + suffix !in t.timers ==> r.0.timers[prefix + suffix].generation == 0
    ensures r.1 ==> r.0.timers[prefix + suffix].ttl == d
    ensures forall k :: k in t.timers && k != prefix + suffix ==> k in r.0.timers && r.0.timers[k] == t.timers[k]
    ensures Valid(t) && r.1 ==>
      |KeysWithPrefix(r.0, prefix)| <= if prefix + suffix in t.timers then |KeysWithPrefix(t, prefix)| else maxCount
    ensures r.0.duration == t.duration
    ensures Valid(t) ==> Valid(r.0)
  {
    if prefix == [] || suffix == [] then (t, false)
    else if |WordsWithPrefix(t, prefix)| >= maxCount then (t, false)
    else
      var r := InsertWord(t, prefix + suffix, d);
      KeysWithPrefixGrow(t, r.0, prefix, prefix + suffix);
      r
  }

  /** Adding one key to the index adds it to the keys with each of its prefixes and to no others. */
  lemma KeysWithPrefixGrow(t: Trie, t': Trie, p: string, w: string)
    requires t'.timers.Keys == t.timers.Keys + {w}
    ensures p <= w ==> KeysWithPrefix(t', p) == KeysWithPrefix(t, p) + {w}
    ensures !(p <= w) ==> KeysWithPrefix(t', p) == KeysWithPrefix(t, p)
    ensures |KeysWithPrefix(t', p)| <= |KeysWithPrefix(t, p)| + 1
    ensures w in t.timers ==> KeysWithPrefix(t', p) == KeysWithPrefix(t, p)
  {
  }

  /** `InsertConditionalDefaultDuration`: `InsertConditional` with the engine's default duration. */
  function InsertConditionalDefaultDuration(t: Trie, prefix: string, suffix: string, maxCount: int): (r: (Trie, bool))
    ensures Valid(t) ==>
      (r.1 <==> prefix != [] && suffix != [] && |KeysWithPrefix(t, prefix)| < maxCount)
    ensures !r.1 ==> r.0 == t
    ensures r.1 ==> prefix + suffix in r.0.timers && r.0.timers.Keys == t.timers.Keys + {prefix + suffix}
    ensures r.1 && prefix + suffix in t.timers ==>
      r.0.root == t.root && r.0.timers[prefix + suffix].generation == t.timers[prefix + suffix].generation + 1
    ensures r.1 && prefix + suffix !in t.timers ==> r.0.timers[prefix + suffix].generation == 0
    ensures r.1 ==> r.0.timers[prefix + suffix].ttl == t.duration
    ensures forall k :: k in t.timers && k != prefix + suffix ==> k in r.0.timers && r.0.timers[k] == t.timers[k]
    ensures Valid(t) && r.1 ==>
      |KeysWithPrefix(r.0, prefix)| <= if prefix + suffix in t.timers then |KeysWithPrefix(t, prefix)| else maxCount
    ensures r.0.duration == t.duration
    ensures Valid(t) ==> Valid(r.0)
  {
    InsertConditional(t, prefix, suffix, t.duration, maxCount)
  }

  /** Drops a stored key from the timer index and from the tree, as the expiry closure and `Delete` do. */
  function RemoveKey(t: Trie, word: string): (r: Trie)
    requires word in t.timers
    ensures r.timers == t.timers - {word} && r.duration == t.duration
    ensures forall x :: HasWord(r.root, x) <==> HasWord(t.root, x) && x != word
    ensures Valid(t) ==> Valid(r)
  {
    Trie(DeleteWord(t.root, word).0, t.duration, t.timers - {word})
  }

  /**
   `deletePrefix`: when the path of `prefix` exists, every word beneath it
   loses its timer entry and its nodes, and the emptied ancestors are pruned;
   when the path is missing nothing changes.
   */
  function DeletePrefix(t: Trie, prefix: string): (r: Trie)
    ensures Walk(t.root, prefix).None? ==> r == t
    ensures forall x :: HasWord(r.root, x) <==> HasWord(t.root, x) && !(prefix <= x)
    ensures Valid(t) ==> r.timers == map k | k in t.timers && !(prefix <= k) :: t.timers[k]
    ensures r.duration == t.duration
    ensures Valid(t) ==> Valid(r)
  {
    match Walk(t.root, prefix)
    case None => t
    case Some(m) =>
      DeletePrefixValid(t, prefix, m);
      Trie(DeletePrefixNode(t.root, prefix).0, t.duration, t.timers - Collect(m, prefix))
  }

  /** The timers and the invariant after `DeletePrefix` on an existing path. */
  lemma DeletePrefixValid(t: Trie, prefix: string, m: Node)
    requires Walk(t.root, prefix) == Some(m)
    ensures Valid(t) ==> t.timers - Collect(m, prefix) == map k | k in t.timers && !(prefix <= k) :: t.timers[k]
    ensures Valid(t) ==> Valid(Trie(DeletePrefixNode(t.root, prefix).0, t.duration, t.timers - Collect(m, prefix)))
  {
    if Valid(t) {
      WordsWithPrefixPresent(t, prefix, m);
      DropKeys(t.timers, Collect(m, prefix), prefix);
      var root := DeletePrefixNode(t.root, prefix).0;
      assert HasWord(root, []) ==> HasWord(t.root, []);
    }
  }

  /** Removing exactly the keys under `prefix` keeps the others. */
  lemma DropKeys(timers: map<string, Timer>, doomed: set<string>, prefix: string)
    requires doomed == set k | k in timers && prefix <= k
    ensures timers - doomed == map k | k in timers && !(prefix <= k) :: timers[k]
  {
  }

  /**
   `Delete`: refuses the empty word. Otherwise it deletes the whole subtree
   of `word` as a prefix, or the single key `word` when it is stored, and
   reports success either way.
   */
  function Delete(t: Trie, word: string, isPrefix: bool): (r: (Trie, bool))
    ensures r.1 <==> word != []
    ensures word == [] ==> r.0 == t
    ensures Valid(t) && word != [] && !isPrefix ==> r.0.timers == t.timers - {word}
    ensures Valid(t) && word != [] && isPrefix ==>
      r.0.timers == map k | k in t.timers && !(word <= k) :: t.timers[k]
    ensures r.0.duration == t.duration
    ensures Valid(t) ==> Valid(r.0)
  {
    if word == [] then (t, false)
    else if isPrefix then (DeletePrefix(t, word), true)
    else if word in t.timers then (RemoveKey(t, word), true)
    else (t, true)
  }

  /** `DeleteSingle`: deletes the key `prefix + suffix`. */
  function DeleteSingle(t: Trie, prefix: string, suffix: string): (r: (Trie, bool))
    ensures r.1 <==> prefix + suffix != []
    ensures Valid(t) ==> r.0.timers == t.timers - {prefix + suffix}
    ensures r.0.duration == t.duration
    ensures Valid(t) ==> Valid(r.0)
  {
    Delete(t, prefix + suffix, false)
  }

  /**
   The expiry closure, run when a timer for `word` fires with the generation
   it captured: the key is removed only if it is still stored with that
   generation; any other firing is a no-op.
   */
  function OnTimer(t: Trie, word: string, captured: nat): (r: Trie)
    ensures word in t.timers && t.timers[word].generation == captured ==> r.timers == t.timers - {word}
    ensures !(word in t.timers && t.timers[word].generation == captured) ==> r == t
    ensures r.duration == t.duration
    ensures Valid(t) ==> Valid(r)
  {
    if word in t.timers && t.timers[word].generation == captured then RemoveKey(t, word) else t
  }

  /**
   Expiry as the engine arms it: the closure captured the local `generation`,
   which is 0 and is never updated, so every firing carries generation 0.
   */
  function Expire(t: Trie, word: string): (r: Trie)
    ensures word in t.timers && t.timers[word].generation == 0 ==> r.timers == t.timers - {word}
    ensures !(word in t.timers && t.timers[word].generation == 0) ==> r == t
    ensures r.duration == t.duration
    ensures Valid(t) ==> Valid(r)
  {
    OnTimer(t, word, 0)
  }

  /**
   `GetWords`: the keys of the timer index (not the tree), each followed by
   CRLF, in the order the map iteration visits them.
   */
  function GetWords(t: Trie, order: seq<string>): (out: string)
    requires IsEnumeration(order, t.timers.Keys)
    ensures (forall i :: 0 <= i < |order| ==> AvoidsChars(order[i], "\r\n")) ==>
      Split(out, "\r\n") == order + [""]
  {
    var out := EachLine(order, "\r\n");
    if forall i :: 0 <= i < |order| ==> AvoidsChars(order[i], "\r\n") then
      SplitEachLine(order, "\r\n");
      out
    else out
  }

  /**
   As written, a stored key is refused its refresh once the keys under its
   prefix have reached `maxCount`: with a count of 1 or less the key itself
   is enough to block it.
   */
  lemma RefreshCanBeRefused(t: Trie, prefix: string, suffix: string, d: Duration, maxCount: int)
    requires Valid(t) && prefix + suffix in t.timers && maxCount <= 1
    ensures InsertConditional(t, prefix, suffix, d, maxCount) == (t, false)
  {
    assert prefix + suffix in KeysWithPrefix(t, prefix);
  }

  /**
   The same refusal from an empty trie: a key admitted under a count of 1 is
   refused when it is sent again with the same count.
   */
  lemma SecondSendRefused(dd: Duration, prefix: string, suffix: string)
    requires prefix != [] && suffix != []
    ensures var first := InsertConditional(NewTrie(dd), prefix, suffix, dd, 1);
      first.1 && !InsertConditional(first.0, prefix, suffix, dd, 1).1
  {
    var t := NewTrie(dd);
    assert KeysWithPrefix(t, prefix) == {};
    RefreshCanBeRefused(InsertConditional(t, prefix, suffix, dd, 1).0, prefix, suffix, dd, 1);
  }

  /**
   `InsertConditional` with the refresh path taken before the count check:
   a stored key is always refreshed, whatever `maxCount` is; a new key is
   admitted exactly as before.
   */
  function InsertConditionalRefreshFirst(t: Trie, prefix: string, suffix: string, d: Duration, maxCount: int): (r: (Trie, bool))
    ensures Valid(t) ==>
      (r.1 <==> prefix != [] && suffix != [] && (prefix + suffix in t.timers || |KeysWithPrefix(t, prefix)| < maxCount))
    ensures prefix + suffix !in t.timers ==> r == InsertConditional(t, prefix, suffix, d, maxCount)
    ensures r.1 && prefix + suffix in t.timers ==>
      r.0.root == t.root && r.0.timers.Keys == t.timers.Keys && r.0.timers[prefix + suffix] == Timer(t.timers[prefix + suffix].generation + 1, d)
    ensures Valid(t) && r.1 ==>
      |KeysWithPrefix(r.0, prefix)| <= if prefix + suffix in t.timers then |KeysWithPrefix(t, prefix)| else maxCount
    ensures r.0.duration == t.duration
    ensures Valid(t) ==> Valid(r.0)
  {
    if prefix == [] || suffix == [] then (t, false)
    else if prefix + suffix in t.timers then
      var r := InsertWord(t, prefix + suffix, d);
      KeysWithPrefixGrow(t, r.0, prefix, prefix + suffix);
      r
    else InsertConditional(t, prefix, suffix, d, maxCount)
  }

  /**
   Sends `prefix + ss[i]` for each suffix in order with the same count and
   collects the answers.
   */
  function InsertAll(t: Trie, prefix: string, ss: seq<string>, d: Duration, maxCount: int): (r: (Trie, seq<bool>))
    ensures |r.1| == |ss|
    ensures t.timers.Keys <= r.0.timers.Keys
    ensures Valid(t) ==> Valid(r.0)
    decreases |ss|
  {
    if ss == [] then (t, [])
    else
      var first := InsertConditional(t, prefix, ss[0], d, maxCount);
      var rest := InsertAll(first.0, prefix, ss[1..], d, maxCount);
      (rest.0, [first.1] + rest.1)
  }

  /**
   The admission cap: sending new distinct suffixes under a prefix that
   already has `n` keys, the `i`-th is admitted exactly when `n + i` is
   below the count.
   */
  lemma {:induction false} AdmissionCap(t: Trie, prefix: string, ss: seq<string>, d: Duration, maxCount: int)
    requires Valid(t) && prefix != []
    requires forall i :: 0 <= i < |ss| ==> ss[i] != [] && prefix + ss[i] !in t.timers
    requires forall i, j :: 0 <= i < j < |ss| ==> ss[i] != ss[j]
    ensures var r := InsertAll(t, prefix, ss, d, maxCount);
      forall i :: 0 <= i < |ss| ==> (r.1[i] <==> |KeysWithPrefix(t, prefix)| + i < maxCount)
    decreases |ss|
  {
    if ss != [] {
      var first := InsertConditional(t, prefix, ss[0], d, maxCount);
      AdmitNew(t, prefix, ss[0], d, maxCount);
      FreshTail(t.timers.Keys, first.0.timers.Keys, prefix, ss);
      var n := |KeysWithPrefix(t, prefix)|;
      assert |KeysWithPrefix(first.0, prefix)| == if first.1 then n + 1 else n;
      AdmissionCap(first.0, prefix, ss[1..], d, maxCount);
      var rest := InsertAll(first.0, prefix, ss[1..], d, maxCount);
      assert forall i :: 0 <= i < |ss[1..]| ==> (InsertAll(first.0, prefix, ss[1..], d, maxCount).1[i] <==> |KeysWithPrefix(first.0, prefix)| + i < maxCount);
      AdmissionCapStep(ss, n, maxCount, first.1, rest.1);
      assert InsertAll(t, prefix, ss, d, maxCount).1 == [first.1] + rest.1;
    }
  }

  /** Every key a run answers true for is live at the end of the run. */
  lemma {:induction false} AdmittedAreLive(t: Trie, prefix: string, ss: seq<string>, d: Duration, maxCount: int)
    ensures var r := InsertAll(t, prefix, ss, d, maxCount);
      forall i :: 0 <= i < |ss| && r.1[i] ==> prefix + ss[i] in r.0.timers
    decreases |ss|
  {
    if ss != [] {
      var first := InsertConditional(t, prefix, ss[0], d, maxCount);
      var rest := InsertAll(first.0, prefix, ss[1..], d, maxCount);
      AdmittedAreLive(first.0, prefix, ss[1..], d, maxCount);
      AnswersLive(rest.0.timers.Keys, first.0.timers.Keys, prefix, ss, first.1, rest.1);
    }
  }

  /**
   However many new distinct suffixes are sent, the prefix ends up holding
   no more keys than the larger of its starting count and `maxCount`.
   */
  lemma {:induction false} AdmissionBound(t: Trie, prefix: string, ss: seq<string>, d: Duration, maxCount: int)
    requires Valid(t) && prefix != []
    requires forall i :: 0 <= i < |ss| ==> ss[i] != [] && prefix + ss[i] !in t.timers
    requires forall i, j :: 0 <= i < j < |ss| ==> ss[i] != ss[j]
    ensures |KeysWithPrefix(InsertAll(t, prefix, ss, d, maxCount).0, prefix)| <=
      if |KeysWithPrefix(t, prefix)| < maxCount then maxCount else |KeysWithPrefix(t, prefix)|
    decreases |ss|
  {
    if ss != [] {
      var first := InsertConditional(t, prefix, ss[0], d, maxCount);
      AdmitNew(t, prefix, ss[0], d, maxCount);
      FreshTail(t.timers.Keys, first.0.timers.Keys, prefix, ss);
      AdmissionBound(first.0, prefix, ss[1..], d, maxCount);
    }
  }

  /** The keys answered true in a run are live at its end, given that they are for its first send and for the rest. */
  lemma AnswersLive(keys: set<string>, keys1: set<string>, prefix: string, ss: seq<string>, first: bool, rest: seq<bool>)
    requires |ss| > 0 && |rest| == |ss| - 1
    requires first ==> prefix + ss[0] in keys1
    requires keys1 <= keys
    requires forall i :: 0 <= i < |rest| && rest[i] ==> prefix + ss[1..][i] in keys
    ensures forall i :: 0 <= i < |ss| && ([first] + rest)[i] ==> prefix + ss[i] in keys
  {
    forall i | 0 <= i < |ss| && ([first] + rest)[i]
      ensures prefix + ss[i] in keys
    {
      if i > 0 {
        assert ([first] + rest)[i] == rest[i - 1];
        assert ss[1..][i - 1] == ss[i];
      }
    }
  }

  /** One admission step for a new key: the answer, the new count and the frame. */
  lemma AdmitNew(t: Trie, prefix: string, suffix: string, d: Duration, maxCount: int)
    requires Valid(t) && prefix != [] && suffix != [] && prefix + suffix !in t.timers
    ensures var r := InsertConditional(t, prefix, suffix, d, maxCount);
      && Valid(r.0)
      && (r.1 <==> |KeysWithPrefix(t, prefix)| < maxCount)
      && (r.1 ==> |KeysWithPrefix(r.0, prefix)| == |KeysWithPrefix(t, prefix)| + 1 && prefix + suffix in r.0.timers)
      && (!r.1 ==> r.0 == t)
      && r.0.timers.Keys <= t.timers.Keys + {prefix + suffix}
  {
    var r := InsertConditional(t, prefix, suffix, d, maxCount);
    if r.1 {
      KeysWithPrefixGrow(t, r.0, prefix, prefix + suffix);
    }
  }

  /** Distinct suffixes make distinct keys under one prefix. */
  lemma DistinctKeys(prefix: string, a: string, b: string)
    requires a != b
    ensures prefix + a != prefix + b
  {
    assert (prefix + a)[|prefix|..] == a;
    assert (prefix + b)[|prefix|..] == b;
  }

  /** After the first suffix is sent, the keys of the remaining distinct suffixes are still new. */
  lemma FreshTail(before: set<string>, after: set<string>, prefix: string, ss: seq<string>)
    requires |ss| > 0 && after <= before + {prefix + ss[0]}
    requires forall i :: 0 <= i < |ss| ==> ss[i] != [] && prefix + ss[i] !in before
    requires forall i, j :: 0 <= i < j < |ss| ==> ss[i] != ss[j]
    ensures forall i :: 0 <= i < |ss[1..]| ==> ss[1..][i] != [] && prefix + ss[1..][i] !in after
  {
    forall i | 0 <= i < |ss[1..]|
      ensures ss[1..][i] != [] && prefix + ss[1..][i] !in after
    {
      assert ss[1..][i] == ss[i + 1];
      DistinctKeys(prefix, ss[i + 1], ss[0]);
    }
  }

  /**
   As written, the expiry of a refreshed key never removes it: the firing
   carries generation 0 and the stored generation is above 0 from then on.
   */
  lemma RefreshedKeyNeverExpires(t: Trie, word: string, d: Duration)
    requires word in t.timers
    ensures var r := InsertWord(t, word, d).0;
      word in r.timers && Expire(r, word) == r && Expire(InsertWord(r, word, d).0, word) == InsertWord(r, word, d).0
  {
  }

  /**
   With each timer firing carrying the generation it was armed with, as
   `OnTimer` takes it: after an insert or refresh, the timer armed by that
   call removes the key, while the timer armed before a refresh finds a
   newer generation and leaves the key alone.
   */
  lemma RefreshedKeyExpiresOnLatestTimer(t: Trie, word: string, d: Duration)
    requires Valid(t) && word != []
    ensures var r := InsertWord(t, word, d).0;
      && OnTimer(r, word, r.timers[word].generation).timers == r.timers - {word}
      && !HasWord(OnTimer(r, word, r.timers[word].generation).root, word)
      && (word in t.timers ==> OnTimer(r, word, t.timers[word].generation) == r)
  {
    var r := InsertWord(t, word, d).0;
    assert Valid(r);
    var gone := OnTimer(r, word, r.timers[word].generation);
    assert Valid(gone);
  }

  /** An entry never refreshed is removed by its own (generation 0) timer, as written and as intended. */
  lemma FreshKeyExpires(t: Trie, word: string, d: Duration)
    requires Valid(t) && word != [] && word !in t.timers
    ensures var r := InsertWord(t, word, d).0;
      Expire(r, word).timers == t.timers && Valid(Expire(r, word))
  {
  }
}

=== FILE: trie_nodes.dfy ===
/**
 The nodes of the trie engine as an immutable recursive value: each node maps
 characters to child nodes and records whether a stored word ends there. The
 functions here are the tree walks of `insertWord`, `Search`, `collectWords`,
 `deleteWord` and `deletePrefix`, with each Go mutation returned as a new node.
 */
module TrieNodes {
  import opened Wrappers

  /** A trie node: children by character, and whether a stored word ends here. */
  datatype Node = Node(children: map<char, Node>, isEnd: bool)

  /** A fresh node, as `&TrieNode{children: make(map[rune]*TrieNode)}`. */
  const Empty: Node := Node(map[], false)

  /** A node that ends a word or has a child. Pruning removes every other non-root node. */
  predicate Live(n: Node)
  {
    n.isEnd || |n.children| > 0
  }

  /** Every node strictly below `n` is live: no dead branch is left hanging. */
  predicate Pruned(n: Node)
  {
    forall c :: c in n.children ==> Live(n.children[c]) && Pruned(n.children[c])
  }

  /** `w` is spelled by a path from `n` that ends at a terminal node. */
  predicate HasWord(n: Node, w: string)
  {
    if w == [] then n.isEnd
    else w[0] in n.children && HasWord(n.children[w[0]], w[1..])
  }

  /** Every word stored under `n`, each spelled by the characters on its path. */
  function Words(n: Node): (ws: set<string>)
  {
    (if n.isEnd then {[]} else {}) +
    (set c, w | c in n.children && w in Words(n.children[c]) :: [c] + w)
  }

  /** The set `Words` and the walk `HasWord` agree on every string. */
  lemma {:induction false} WordsIffHasWord(n: Node, w: string)
    ensures w in Words(n) <==> HasWord(n, w)
    decreases w
  {
    if w != [] {
      if w[0] in n.children {
        WordsIffHasWord(n.children[w[0]], w[1..]);
        if w[1..] in Words(n.children[w[0]]) {
          assert [w[0]] + w[1..] == w;
        }
      }
      if w in Words(n) {
        var c, v :| c in n.children && v in Words(n.children[c]) && w == [c] + v;
        assert c == w[0] && v == w[1..];
        WordsIffHasWord(n.children[c], v);
      }
    }
  }

  /** A live node below a pruned tree stores at least one word. */
  lemma {:induction false} LiveHasWord(n: Node) returns (w: string)
    requires Live(n) && Pruned(n)
    ensures HasWord(n, w)
    decreases n
  {
    if n.isEnd {
      w := [];
    } else {
      var c :| c in n.children;
      var v := LiveHasWord(n.children[c]);
      w := [c] + v;
      assert w[0] == c && w[1..] == v;
    }
  }

  /** The node reached by following `p` from `n`, as the loop of `Search`. */
  function Walk(n: Node, p: string): (r: Option<Node>)
    ensures r.Some? ==> forall x :: HasWord(r.value, x) <==> HasWord(n, p + x)
    ensures r.None? ==> forall x :: HasWord(n, x) ==> !(p <= x)
    ensures r.Some? && Pruned(n) ==> Pruned(r.value) && (p != [] ==> Live(r.value))
    decreases p
  {
    if p == [] then
      assert forall x :: p + x == x;
      Some(n)
    else if p[0] !in n.children then None
    else
      var r := Walk(n.children[p[0]], p[1..]);
      assert forall x :: (p + x)[0] == p[0] && (p + x)[1..] == p[1..] + x;
      assert forall x :: p <= x && x != [] ==> x[0] == p[0] && p[1..] <= x[1..];
      r
  }

  /**
   The path creation of `insertWord`: the missing nodes along `w` are added
   and the last one is marked terminal.
   */
  function InsertPath(n: Node, w: string): (r: Node)
    ensures forall x :: HasWord(r, x) <==> HasWord(n, x) || x == w
    ensures Live(r)
    ensures Pruned(n) ==> Pruned(r)
    decreases w
  {
    if w == [] then n.(isEnd := true)
    else
      var child := if w[0] in n.children then n.children[w[0]] else Empty;
      var child' := InsertPath(child, w[1..]);
      var r := n.(children := n.children[w[0] := child']);
      assert forall x :: x != [] && x[0] == w[0] && x[1..] == w[1..] ==> x == w;
      r
  }

  /**
   `deleteWord`: clears the terminal mark at the end of `w` and removes every
   node of the path that is left childless and non-terminal, bottom up. The
   flag tells the parent to drop this node.
   */
  function DeleteWord(n: Node, w: string): (r: (Node, bool))
    ensures forall x :: HasWord(r.0, x) <==> HasWord(n, x) && x != w
    ensures r.1 ==> r.0 == Empty
    ensures !r.1 ==> r.0 == n || Live(r.0)
    ensures Pruned(n) ==> Pruned(r.0)
    decreases w
  {
    if w == [] then
      if !n.isEnd then (n, false)
      else
        var m := n.(isEnd := false);
        (m, |m.children| == 0)
    else if w[0] !in n.children then (n, false)
    else
      var (child, del) := DeleteWord(n.children[w[0]], w[1..]);
      assert forall x :: x != [] && x[0] == w[0] && x[1..] == w[1..] ==> x == w;
      if del then
        var m := n.(children := n.children - {w[0]});
        (m, |m.children| == 0 && !m.isEnd)
      else
        (n.(children := n.children[w[0] := child]), false)
  }

  /** `w` is the only word stored under `n` (it may be absent). */
  ghost predicate OnlyWord(n: Node, w: string)
  {
    forall x :: HasWord(n, x) ==> x == w
  }

  /** `HasWord` on a word that starts with `c`. */
  lemma HasWordCons(n: Node, c: char, v: string)
    ensures HasWord(n, [c] + v) <==> c in n.children && HasWord(n.children[c], v)
  {
    assert ([c] + v)[0] == c && ([c] + v)[1..] == v;
  }

  /** A pruned node that ends a word and also has a child stores a second, longer word. */
  lemma OtherWordBelow(n: Node, c: char) returns (x: string)
    requires Pruned(n) && c in n.children
    ensures HasWord(n, x) && x != [] && x[0] == c
  {
    var v := LiveHasWord(n.children[c]);
    HasWordCons(n, c, v);
    x := [c] + v;
  }

  /** Every non-empty word of `n` goes through one of its children. */
  lemma WordThroughChild(n: Node, x: string)
    requires HasWord(n, x) && x != []
    ensures x[0] in n.children && x == [x[0]] + x[1..]
  {
  }

  /**
   In a pruned tree the flag `deleteWord` returns is exact: the parent drops a
   node precisely when `w` was the only word stored beneath it.
   */
  lemma {:induction false} DeleteWordFlag(n: Node, w: string)
    requires Pruned(n)
    ensures DeleteWord(n, w).1 <==> HasWord(n, w) && OnlyWord(n, w)
    decreases w
  {
    if w == [] {
      if n.isEnd && |n.children| > 0 {
        var c :| c in n.children;
        var x := OtherWordBelow(n, c);
        assert !DeleteWord(n, w).1;
        assert x != w;
      } else if n.isEnd {
        forall x | x != []
          ensures !HasWord(n, x)
        {
          assert x[0] !in n.children;
        }
        assert DeleteWord(n, w).1;
      }
    } else if w[0] in n.children {
      DeleteWordFlag(n.children[w[0]], w[1..]);
      DeleteWordFlagStep(n, w);
    }
  }

  /** The inductive step of `DeleteWordFlag`, for a word whose first node exists. */
  lemma DeleteWordFlagStep(n: Node, w: string)
    requires Pruned(n) && w != [] && w[0] in n.children
    requires DeleteWord(n.children[w[0]], w[1..]).1 <==>
      HasWord(n.children[w[0]], w[1..]) && OnlyWord(n.children[w[0]], w[1..])
    ensures DeleteWord(n, w).1 <==> HasWord(n, w) && OnlyWord(n, w)
  {
    var child := n.children[w[0]];
    DeleteWordUnfold(n, w);
    if DeleteWord(child, w[1..]).1 {
      DeleteWordFlagDropped(n, w);
    } else if HasWord(child, w[1..]) {
      NotOnlyWordAbove(n, w);
    }
  }

  /** A second word in the child on `w`'s path is a second word of `n`. */
  lemma NotOnlyWordAbove(n: Node, w: string)
    requires w != [] && w[0] in n.children
    requires !OnlyWord(n.children[w[0]], w[1..])
    ensures !OnlyWord(n, w)
  {
    var child := n.children[w[0]];
    var v :| HasWord(child, v) && v != w[1..];
    var x := [w[0]] + v;
    HasWordCons(n, w[0], v);
    assert x[1..] == v;
    assert HasWord(n, x) && x != w;
  }

  /** One level of `deleteWord` below a node that has `w`'s first child. */
  lemma DeleteWordUnfold(n: Node, w: string)
    requires w != [] && w[0] in n.children
    ensures DeleteWord(n, w).1 <==>
      DeleteWord(n.children[w[0]], w[1..]).1 && |n.children - {w[0]}| == 0 && !n.isEnd
  {
  }

  /** When the child on `w`'s path is dropped, `n` held only `w` iff nothing else remains. */
  lemma DeleteWordFlagDropped(n: Node, w: string)
    requires Pruned(n) && w != [] && w[0] in n.children
    requires HasWord(n.children[w[0]], w[1..])
    requires OnlyWord(n.children[w[0]], w[1..])
    ensures (|n.children - {w[0]}| == 0 && !n.isEnd) <==> OnlyWord(n, w)
  {
    if |n.children - {w[0]}| > 0 {
      var c :| c in n.children - {w[0]};
      var x := OtherWordBelow(n, c);
      assert x[0] != w[0];
    } else if n.isEnd {
      assert HasWord(n, []);
    } else {
      forall x | HasWord(n, x)
        ensures x == w
      {
        WordThroughChild(n, x);
        assert x[0] == w[0];
        assert HasWord(n.children[w[0]], x[1..]);
        assert w == [w[0]] + w[1..];
      }
    }
  }

  /**
   The tree part of `deletePrefix`: follows `p`; if the path exists, clears the
   node at its end (no children, not terminal) and then removes the emptied
   nodes on the way back up, stopping at the first node that must remain. If
   the path is missing nothing changes. The flag tells the parent to drop this
   node.
   */
  function DeletePrefixNode(n: Node, p: string): (r: (Node, bool))
    ensures forall x :: HasWord(r.0, x) <==> HasWord(n, x) && !(p <= x)
    ensures r.1 ==> r.0 == Empty
    ensures !r.1 ==> r.0 == n || Live(r.0)
    ensures Pruned(n) ==> Pruned(r.0)
    ensures Walk(n, p).None? ==> r == (n, false)
    decreases p
  {
    if p == [] then
      (Empty, true)
    else if p[0] !in n.children then (n, false)
    else
      var (child, del) := DeletePrefixNode(n.children[p[0]], p[1..]);
      assert forall x :: x != [] ==> (p <= x <==> x[0] == p[0] && p[1..] <= x[1..]);
      if del then
        RemoveChild(n, p[0]);
        var m := n.(children := n.children - {p[0]});
        (m, |m.children| == 0 && !m.isEnd)
      else
        ReplaceChild(n, p[0], child);
        assert Walk(n, p).None? ==> n.children[p[0] := child] == n.children;
        (n.(children := n.children[p[0] := child]), false)
  }

  /** Dropping the child under `c` drops exactly the words that start with `c`. */
  lemma RemoveChild(n: Node, c: char)
    ensures forall x :: HasWord(n.(children := n.children - {c}), x) <==> HasWord(n, x) && !(x != [] && x[0] == c)
  {
  }

  /** Replacing the child under `c` replaces exactly the words that start with `c`. */
  lemma ReplaceChild(n: Node, c: char, child: Node)
    ensures forall x :: HasWord(n.(children := n.children[c := child]), x) <==>
      if x != [] && x[0] == c then HasWord(child, x[1..]) else HasWord(n, x)
  {
  }
}

=== FILE: wrappers.dfy ===
/** Failure-compatible optional values shared by the other modules. */
module Wrappers {

  /** A value that may be missing, as a Go lookup that reports `ok == false`. */
  datatype Option<+T> = None | Some(value: T)
}
